=== FILE: README.md ===
# PatherServer core, modelled in Dafny

PatherServer is the server of a small multiplayer maze game. It generates a square maze map
and keeps a registry of connected players. A tick loop, `DataSender`, sends every registered
player the state of every registered player, itself included, about 200 times a second. One `ClientHandler` per
connection reads the client's comma-separated commands (`init`, `update`, `attack`, `bye`).
After each command it resolves melee hits against the other players.

The project models that core as pure functions over immutable data:

| file | models |
|---|---|
| `wrappers.dfy` | `Option`, for the references the Java code may leave null |
| `text.dfy` | `String.split`, joining with separators, and their round trips |
| `decimal.dfy` | `Integer.toString` / `Integer.parseInt` on 32-bit ints |
| `maze.dfy` | the three wall bands and the recursive-backtracking `dfs` carving of `MapGenerator` |
| `map_generator.dfy` | `MapGenerator` itself: framing, random rooms, centre block |
| `game_map.dfy` | `PatherServer.generateMap` (map text, spawn list) and `getRandomSpawnPoint` |
| `player.dfy` | `Player` and its mutators |
| `players_manager.dfy` | `PlayersManager`, the id-to-player hash map |
| `server.dfy` | the shared state: player objects that are referenced from several places |
| `data_sender.dfy` | `DataSender`: its three queues, `updatePlayerList`, `sync`, the wire format and one tick |
| `client_handler.dfy` | one pass of `ClientHandler.run`'s loop: parsing, commands, collision |
| `start_button.dfy` | `StartButtonListener`: the port check and the server calls it makes |

Java objects are shared by reference, so one player object can be reachable from:

- the handler's `player` variable,
- `DataSender`'s add queue,
- the `PlayersManager` map.

`Server.World` models this. Every player object lives in one of two maps, keyed by its UUID:

- `registry` is the `PlayersManager` map;
- `detached` holds objects that are not registered, or no longer are.

The queues hold ids. A mutation through any reference is a `Server.Write` of the object
under its id. `Server.Valid` is the invariant every operation preserves:

- objects are stored under their own ids;
- each object lives in one place only;
- every queued id names an object.

Nondeterminism and Java library behaviour the model cannot see are passed in as parameters:

- `Collections.shuffle` and `Math.random`;
- `UUID.randomUUID`;
- the iteration order of the `ConcurrentHashMap` key set;
- `Double.parseDouble` and `Double.toString`.

Every property holds for every choice of them that the Java library could make. Random
numbers lie in [0, 1), and a fresh UUID names no live object. An iteration order lists
every key of the registry exactly once (`DataSender.Enumerates`).

## Model

| member | source | states |
|---|---|---|
| Players.TypeNameParses | src/me/markyhzhang/projectpatherserver/Player.java:19-27 | every player type's name parses back to that type, and to no other |
| Players.NewPlayer | src/me/markyhzhang/projectpatherserver/Player.java:89-99 | construction succeeds exactly when the type name is one of the four enum names; the new player is alive at 100 health, not attacking, not damaging, and has the given id, name, stream and position |
| Players.Damage | src/me/markyhzhang/projectpatherserver/Player.java:177-179 | health drops by exactly the amount, with no clamping, and nothing else changes |
| Players.SetDamaging | src/me/markyhzhang/projectpatherserver/Player.java:113-115 | sets the damaging flag and changes nothing else |
| Players.SetAttacking | src/me/markyhzhang/projectpatherserver/Player.java:129-131 | sets the attacking flag and changes nothing else |
| Players.SetX | src/me/markyhzhang/projectpatherserver/Player.java:193-195 | sets x and changes nothing else |
| Players.SetY | src/me/markyhzhang/projectpatherserver/Player.java:209-211 | sets y and changes nothing else |
| Players.SetAttackDamage | src/me/markyhzhang/projectpatherserver/Player.java:225-227 | sets the attack damage and changes nothing else |
| Players.MutationsKeepIdentity | src/me/markyhzhang/projectpatherserver/Player.java:89-227 | no sequence of mutator calls changes a player's id, name, type or stream; its health is the starting health minus the total damage dealt |
| Players.DamageAdds | src/me/markyhzhang/projectpatherserver/Player.java:177-179 | two blows equal one blow of their sum |
| Players.DamageKills | src/me/markyhzhang/projectpatherserver/Player.java:169-179 | a blow leaves the player alive exactly when it is smaller than the remaining health |
| Players.DamageNeverHeals | src/me/markyhzhang/projectpatherserver/Player.java:169-179 | non-negative damage never raises health, and a dead player stays dead |
| PlayersManager.AddPlayer | src/me/markyhzhang/projectpatherserver/PlayersManager.java:35-37 | the key set gains the player's id; that id maps to the player; every other entry is kept; entries stay keyed by their own ids |
| PlayersManager.GetPlayer | src/me/markyhzhang/projectpatherserver/PlayersManager.java:44-46 | finds the entry exactly when the id is registered, and returns null (None) otherwise |
| PlayersManager.RemovePlayer | src/me/markyhzhang/projectpatherserver/PlayersManager.java:60-62 | the key set loses exactly that id; every other entry is kept |
| PlayersManager.Size | src/me/markyhzhang/projectpatherserver/PlayersManager.java:52-54 | the number of registered ids |
| PlayersManager.Ids | src/me/markyhzhang/projectpatherserver/PlayersManager.java:69-71 | an id is in the key set exactly when `getPlayer` finds it |
| PlayersManager.PlayersList | src/me/markyhzhang/projectpatherserver/PlayersManager.java:78-80 | a player is in the value collection exactly when some id maps to it |
| PlayersManager.AddSize | src/me/markyhzhang/projectpatherserver/PlayersManager.java:35-54 | adding a new id grows the size by one; re-adding an id keeps the size |
| PlayersManager.RemoveSize | src/me/markyhzhang/projectpatherserver/PlayersManager.java:52-62 | removing an absent id changes nothing; removing a present id shrinks the size by one |
| PlayersManager.AddThenRemove | src/me/markyhzhang/projectpatherserver/PlayersManager.java:35-62 | adding and then removing an id leaves what removing it alone leaves |
| PlayersManager.ListMatchesIds | src/me/markyhzhang/projectpatherserver/PlayersManager.java:69-80 | in a registry keyed by ids, the value collection holds exactly the players stored under their own ids, and has as many elements as there are ids |
| Maze.FillBands | src/me/markyhzhang/projectpatherserver/MapGenerator.java:61-80 | the counter loop gives the cell at row-major index k the id 3 in the first third, 4 in the second and 5 in the rest (integer division) |
| Maze.BandOrder | src/me/markyhzhang/projectpatherserver/MapGenerator.java:70-80 | band ids are wall ids and never decrease along row-major order |
| Maze.Dfs | src/me/markyhzhang/projectpatherserver/MapGenerator.java:167-192 | carving only adds cells, stays inside the interior, and ends with every inside cell two steps from the start carved |
| Maze.Visit | src/me/markyhzhang/projectpatherserver/MapGenerator.java:175-190 | after one direction is examined, the cell two steps that way is carved or lies outside; nothing is uncarved and nothing outside is touched |
| Maze.Carve | src/me/markyhzhang/projectpatherserver/MapGenerator.java:83 | `dfs(0, 0)` carves only interior cells, and carves (0, 2) and (2, 0) whenever they exist |
| Maze.DfsGrows | src/me/markyhzhang/projectpatherserver/MapGenerator.java:167-192 | every cell a dfs call carves is connected to its start through carved cells, and every carved even cell has all its two-step neighbours carved |
| Maze.CarveConnected | src/me/markyhzhang/projectpatherserver/MapGenerator.java:83-186 | after `dfs(0, 0)` the origin is carved, every carved cell is reachable from it through carved 4-neighbours, and no carved cell has two odd coordinates |
| Maze.CarveSpans | src/me/markyhzhang/projectpatherserver/MapGenerator.java:83-186 | every interior cell with both coordinates even is carved |
| Maze.MazeConnected | src/me/markyhzhang/projectpatherserver/MapGenerator.java:61-186 | a cell of the interior grid is 0 exactly when dfs carved it, and every 0 cell is reachable from the corner |
| Maze.OddCellsKeepBand | src/me/markyhzhang/projectpatherserver/MapGenerator.java:70-186 | cells with both coordinates odd keep their band wall id |
| Maze.CarvedMazeIds | src/me/markyhzhang/projectpatherserver/MapGenerator.java:61-186 | the carved interior holds only floor (0) and the band ids 3, 4, 5 |
| MapGenerator.NewGenerator | src/me/markyhzhang/projectpatherserver/MapGenerator.java:47-51 | the stored interior size is two less than the requested size in each direction |
| MapGenerator.Embed | src/me/markyhzhang/projectpatherserver/MapGenerator.java:90-100 | the framed grid is two larger each way, has 9 on its outer ring, and has the maze inside |
| MapGenerator.InteriorOfEmbed | src/me/markyhzhang/projectpatherserver/MapGenerator.java:90-100 | framing loses nothing: the inside of the framed grid is the maze |
| MapGenerator.Paint | src/me/markyhzhang/projectpatherserver/MapGenerator.java:114-118 | the rectangle gets the value, and every cell outside it is kept |
| MapGenerator.PlaceRooms | src/me/markyhzhang/projectpatherserver/MapGenerator.java:107-119 | a cell is a room cell after the rooms are painted exactly when it lies in some drawn room; every other cell is kept |
| MapGenerator.CentreBlock | src/me/markyhzhang/projectpatherserver/MapGenerator.java:126-140 | both parity branches paint exactly the 4x4 block starting at the centre start, and keep everything else |
| MapGenerator.OverlayCell | src/me/markyhzhang/projectpatherserver/MapGenerator.java:90-140 | an output cell is the centre id if it is in the centre block, else the room id if it is in a room, else the border or maze value |
| MapGenerator.RoomBounds | src/me/markyhzhang/projectpatherserver/MapGenerator.java:107-119 | rooms drawn within the `Math.random` ranges lie in rows 2..N-3 and columns 2..N-2 |
| MapGenerator.RoomCellsInside | src/me/markyhzhang/projectpatherserver/MapGenerator.java:58-144 | every room cell of a generated map lies in a drawn room, inside those bounds |
| MapGenerator.GenerateIds | src/me/markyhzhang/projectpatherserver/MapGenerator.java:58-144 | a generated map is ringed by border walls (9) and holds only the ids 0, 1, 2, 3, 4, 5 and 9 |
| MapGenerator.CornerOpen | src/me/markyhzhang/projectpatherserver/MapGenerator.java:83-119 | cell (1, 1), the carved origin, is open in every generated map: no room reaches it and the centre block is elsewhere |
| GameMap.MapTextRows | src/me/markyhzhang/projectpatherserver/PatherServer.java:105-115 | splitting the map text at the bar character gives the row texts back, plus the empty piece after the last separator |
| GameMap.MapTextLength | src/me/markyhzhang/projectpatherserver/PatherServer.java:105-115 | an N-row, M-column grid of single digits is written in N * (M + 1) characters |
| GameMap.MapTextParses | src/me/markyhzhang/projectpatherserver/PatherServer.java:105-115 | reading the map text of a single-digit grid gives the grid back |
| GameMap.Spawns | src/me/markyhzhang/projectpatherserver/PatherServer.java:105-111 | the spawn list holds exactly the open cells on row 1, column 1, row N-2 or column N-2, in row-major order and without duplicates |
| GameMap.GeneratedDigits | src/me/markyhzhang/projectpatherserver/MapGenerator.java:58-144 | every cell of a generated map is a single decimal digit, so the map text has one character per cell |
| GameMap.GenerateMap | src/me/markyhzhang/projectpatherserver/PatherServer.java:99-116 | `generateMap(n)` appends n * (n + 1) characters to the map text, which read back as the grid it keeps; it appends that grid's spawn points, including (1, 1), and keeps what was there before |
| GameMap.GenerateMapGrid | src/me/markyhzhang/projectpatherserver/PatherServer.java:99-102 | the grid `generateMap(n)` keeps is the one `new MapGenerator(n, n).generate()` returns |
| GameMap.RandomSpawnPoint | src/me/markyhzhang/projectpatherserver/PatherServer.java:154-156 | a draw from a non-empty spawn list is an element of it; an empty list fails, as `get(0)` on an empty list throws |
| GameMap.EverySpawnDrawn | src/me/markyhzhang/projectpatherserver/PatherServer.java:154-156 | every spawn point is returned for some random number in [0, 1) |
| GameMap.FirstMap | src/me/markyhzhang/projectpatherserver/PatherServer.java:99-156 | on a fresh server the map text reads back as the map `MapGenerator` generated for size n, the spawn list is that map's spawn points, and every spawn draw succeeds |
| Server.Write | src/me/markyhzhang/projectpatherserver/ClientHandler.java:111-114 | a mutation through a reference changes that one object, wherever it lives, and nothing else |
| Server.Register | src/me/markyhzhang/projectpatherserver/DataSender.java:153 | `players.addPlayer(p)` puts the object in the registry; no object is lost or changed |
| Server.Deregister | src/me/markyhzhang/projectpatherserver/DataSender.java:156 | `players.removePlayer(id)` takes the id out of the registry, but the object lives on unchanged |
| DataSender.AddPlayer | src/me/markyhzhang/projectpatherserver/DataSender.java:166-169 | the id is appended to both the add queue and the UUID queue; nothing else changes |
| DataSender.RemovePlayer | src/me/markyhzhang/projectpatherserver/DataSender.java:176-178 | the id is appended to the remove queue; nothing else changes |
| DataSender.QueueValid | src/me/markyhzhang/projectpatherserver/DataSender.java:166-187 | queueing a live object keeps the world valid |
| DataSender.UpdatePlayerList | src/me/markyhzhang/projectpatherserver/DataSender.java:150-158 | both queues are drained and the world stays valid; afterwards an id is registered exactly when it was registered or queued for adding, and was not queued for removal (removals win) |
| DataSender.UpdateKeepsObjects | src/me/markyhzhang/projectpatherserver/DataSender.java:150-158 | draining the queues neither loses nor changes any player object |
| DataSender.DecodeRecord | src/me/markyhzhang/projectpatherserver/DataSender.java:113-134 | a record reads as a row exactly when it has nine bar-separated fields with valid flag words, and joining the row's fields gives the record back |
| DataSender.RecordRoundTrip | src/me/markyhzhang/projectpatherserver/DataSender.java:118-134 | the record written for a player whose name and numbers hold no separator reads back as that player's row, and holds no '%' |
| DataSender.RecordsRoundTrip | src/me/markyhzhang/projectpatherserver/DataSender.java:118-138 | the '%'-terminated player list reads back as the rows of the players, in iteration order |
| DataSender.BootstrapRoundTrip | src/me/markyhzhang/projectpatherserver/DataSender.java:96-106 | the first frame to a new player splits at '#' into the UUID, the "x,y" spawn point and the map text; the point splits at ',' into two integers that parse back to the spawn cell |
| DataSender.Serve | src/me/markyhzhang/projectpatherserver/DataSender.java:85-140 | serving one player fails only when it heads the UUID queue and no spawn can be drawn; otherwise the queue head is popped exactly when it is this player, that player is sent the spawn point, and the frame snapshots the registry |
| DataSender.ServeMoves | src/me/markyhzhang/projectpatherserver/DataSender.java:96-106 | a bootstrap moves only the served player, to the drawn spawn cell; without a bootstrap nothing changes |
| DataSender.SyncRecipients | src/me/markyhzhang/projectpatherserver/DataSender.java:83-142 | frame i of a sync goes to the i-th id of the key-set iteration |
| DataSender.SyncSnapshots | src/me/markyhzhang/projectpatherserver/DataSender.java:83-142 | every frame of a sync lists every registered player |
| DataSender.BlockedHead | src/me/markyhzhang/projectpatherserver/DataSender.java:96 | when the UUID queue's head is not registered, nobody is bootstrapped and the world is unchanged: the queue waits until `updatePlayerList` registers that player |
| DataSender.Sync | src/me/markyhzhang/projectpatherserver/DataSender.java:83-142 | a sync with a non-empty spawn list succeeds; it sends exactly one frame per registered player, in iteration order; it keeps the world valid and leaves the registered ids and the add and remove queues alone |
| DataSender.EnumeratesCounts | src/me/markyhzhang/projectpatherserver/DataSender.java:85 | a sequence lists the registry's key set exactly once per key if and only if it holds the same multiset of ids as the key set |
| DataSender.StuckTick | src/me/markyhzhang/projectpatherserver/DataSender.java:53-158 | when the UUID queue's head is unregistered and not waiting in the add queue (or also queued for removal), a tick sends no spawn point to anyone, keeps the UUID queue, and leaves it just as stuck |
| DataSender.Tick | src/me/markyhzhang/projectpatherserver/DataSender.java:53-65 | one tick (sync, then updatePlayerList) frames every player registered at its start, empties the add and remove queues, and registers exactly the ids that were registered or queued for adding and not queued for removal |
| ClientHandler.ScanMeetsReference | src/me/markyhzhang/projectpatherserver/ClientHandler.java:146-166 | the collision loop deals exactly the summed attack damage of the attacking, living players within 1.5 blocks, and sets the damaging flag exactly when there is one |
| ClientHandler.CollideWithMeetsReference | src/me/markyhzhang/projectpatherserver/ClientHandler.java:143-170 | a live player loses the reference damage and is damaging exactly when hit; a dead player only has its damaging flag cleared |
| ClientHandler.CollideOrderFree | src/me/markyhzhang/projectpatherserver/ClientHandler.java:148-165 | the result of the collision loop does not depend on the key-set iteration order |
| ClientHandler.HitDamagePermutation | src/me/markyhzhang/projectpatherserver/ClientHandler.java:148-165 | any permutation of the players deals the same total damage |
| ClientHandler.MeleeRadius | src/me/markyhzhang/projectpatherserver/ClientHandler.java:46-158 | an attacker one block away hits, and one two blocks away does not |
| ClientHandler.Collide | src/me/markyhzhang/projectpatherserver/ClientHandler.java:142-170 | collision keeps the world valid and changes no object but the handler's own player; over any iteration of the registry's key set, a live player loses exactly the reference damage and is damaging exactly when some attacker hits it, a dead one only has its damaging flag cleared, and its other fields stay as they were |
| ClientHandler.CollideAnyOrder | src/me/markyhzhang/projectpatherserver/ClientHandler.java:148-165 | two iterations of the same key set give the same collision result |
| ClientHandler.RestrictKeeps | src/me/markyhzhang/projectpatherserver/ClientHandler.java:148 | iterating a key set that still holds every id of the earlier iteration gives that iteration back |
| ClientHandler.RestrictEnumerates | src/me/markyhzhang/projectpatherserver/ClientHandler.java:148 | after `bye` shrinks the registry, the earlier iteration order with the departed id dropped is an iteration of the new key set |
| ClientHandler.Bye | src/me/markyhzhang/projectpatherserver/ClientHandler.java:83-90 | `bye` succeeds exactly when the handler has a player; it queues the removal and deregisters the player, leaves the add and UUID queues alone, and every object lives on unchanged |
| ClientHandler.Init | src/me/markyhzhang/projectpatherserver/ClientHandler.java:93-105 | `init` succeeds exactly when the line has at least three fields and the third names a player type; it creates an unregistered player under the fresh UUID: the second field as its name, the third as its type, the client's stream, position (-1, -1), 100 health, not attacking or damaging; it queues that player for adding and bootstrapping, leaves the registry and remove queue alone, and rebinds the handler to it |
| ClientHandler.Coordinates | src/me/markyhzhang/projectpatherserver/ClientHandler.java:108-109 | fields 1 and 2 are read as numbers; reading fails when either is missing or malformed |
| ClientHandler.Update | src/me/markyhzhang/projectpatherserver/ClientHandler.java:106-116 | `update` moves the handler's player to the parsed coordinates and clears its attacking flag, keeping every other field and every other object; it fails without a player or with malformed coordinates |
| ClientHandler.Attack | src/me/markyhzhang/projectpatherserver/ClientHandler.java:117-131 | `attack` sets the attacking flag and moves the player before it reads the damage, so those two effects survive a malformed damage field; the damage is set only when it parses, no other field or object changes, and the command completes exactly when all four fields parse |
| ClientHandler.Dispatch | src/me/markyhzhang/projectpatherserver/ClientHandler.java:79-132 | a line aborts the handler exactly when it is empty after splitting, is `bye` without a player, or is a command whose fields fail; it stops exactly on `bye` with a player; only `init` rebinds the handler; other players are untouched; the UUID and add queues gain at most the fresh id, and the remove queue only grows. A good `bye`, `init` or `update` line yields exactly that command's state, `attack` always yields the state `Attack` reached, an aborted line other than `attack` changes nothing, and any other command changes nothing |
| ClientHandler.Step | src/me/markyhzhang/projectpatherserver/ClientHandler.java:74-183 | given an iteration of the key set, one pass keeps the world valid and the handler bound; only a read line can abort; the handler stops exactly on a socket error or on `bye` with a player; no object is lost, no player is registered, other players are untouched, and the queues only grow: the UUID and add queues by the fresh id. A null line changes nothing; a socket error queues the bound player's removal and unregisters it, as `bye` does, or changes nothing without a player; a line that aborts ends the pass with exactly the state the command reached, so the collision block does not run; after a line that did not abort, the handler is the one the command left and only its player differs from the command's state |
| ClientHandler.InitThenCollides | src/me/markyhzhang/projectpatherserver/ClientHandler.java:93-170 | after a good `init`, the handler is bound to the fresh UUID, and that player ends as the collision block leaves the new player at (-1, -1) against the registered players |
| ClientHandler.UpdateThenCollides | src/me/markyhzhang/projectpatherserver/ClientHandler.java:106-170 | after a good `update`, the player is moved with attacking cleared, and then ends as the collision block leaves that moved player against the registered players |
| ClientHandler.AttackThenCollides | src/me/markyhzhang/projectpatherserver/ClientHandler.java:117-170 | after a complete `attack`, the player is moved, attacking and carries the new damage, and then ends as the collision block leaves it against the registered players |
| ClientHandler.StuckStep | src/me/markyhzhang/projectpatherserver/ClientHandler.java:74-170 | a pass never unsticks a stuck UUID queue: its unregistered head stays at the front and is never queued for adding again |
| ClientHandler.StuckKept | src/me/markyhzhang/projectpatherserver/DataSender.java:96 | queues that grow only by a fresh id, with no one newly registered, keep a stuck UUID queue stuck at the same head |
| ClientHandler.OnlyCommasAborts | src/me/markyhzhang/projectpatherserver/ClientHandler.java:79-81 | a line of commas alone splits into no fields, so `info[0]` throws and the handler ends without changing anything |
| ClientHandler.ByeBeforeInitAborts | src/me/markyhzhang/projectpatherserver/ClientHandler.java:83-90 | `bye` before `init` dereferences the null player and ends the handler without changing anything |
| ClientHandler.ByeStillCollides | src/me/markyhzhang/projectpatherserver/ClientHandler.java:83-170 | after `bye` the collision block still runs on the departing, now unregistered player against the remaining ones |
| ClientHandler.SecondInitKeepsFirst | src/me/markyhzhang/projectpatherserver/ClientHandler.java:93-105 | a second `init` rebinds the handler to a new player; the first object stays as it was, registered if it was, and is never queued for removal |
| ClientHandler.OtherCommandOnlyCollides | src/me/markyhzhang/projectpatherserver/ClientHandler.java:92-170 | an unknown command, such as a keep-alive, changes nothing but the collision result |
| ClientHandler.AttackMovesBeforeDamage | src/me/markyhzhang/projectpatherserver/ClientHandler.java:117-131 | an `attack` with a missing or malformed damage aborts the handler, but the player is already moved and attacking |
| ClientHandler.SessionEnds | src/me/markyhzhang/projectpatherserver/ClientHandler.java:74-183 | a handler that is still running has seen no socket error |
| Decimal.ParseInt | src/me/markyhzhang/projectpatherserver/gui/listeners/StartButtonListener.java:54 | `Integer.parseInt` accepts exactly an optional sign followed by one or more digits whose value fits in an `int`, and returns that signed value |
| Decimal.ParseIntString | src/me/markyhzhang/projectpatherserver/DataSender.java:100 | the decimal text of any int parses back to that int |
| StartButton.ParsePort | src/me/markyhzhang/projectpatherserver/gui/listeners/StartButtonListener.java:52-66 | the port is accepted exactly when `Integer.parseInt` succeeds and the value lies in 5000..6000, both ends included |
| StartButton.PlaceholderRejected | src/me/markyhzhang/projectpatherserver/gui/StartFrame.java:100 | pressing start while the field still shows its placeholder text is rejected |
| StartButton.PortText | src/me/markyhzhang/projectpatherserver/gui/listeners/StartButtonListener.java:52-61 | a port typed as a decimal integer is accepted exactly when it lies in 5000..6000, and reads back as itself |
| StartButton.Calls | src/me/markyhzhang/projectpatherserver/gui/listeners/StartButtonListener.java:52-73 | a rejected port makes no server call; an accepted one calls `generateMap(mapSize)` and then `start(port)` |
| StartButton.OnStart | src/me/markyhzhang/projectpatherserver/gui/listeners/StartButtonListener.java:44-73 | the server is launched exactly when the port is accepted; its map fields are exactly what `generateMap(mapSize)` leaves, written before the server starts: the old map text is kept as a prefix and followed by the text of the map `MapGenerator` generated, which reads back as that map, and the spawn list gains that map's spawn points |
| StartButton.StartedCanSpawn | src/me/markyhzhang/projectpatherserver/gui/listeners/StartButtonListener.java:69-73 | once started from a fresh server, every spawn draw succeeds |

## Notes on the source

- **Room count.** The number of rooms is `row / 4`. Here `row` is the interior size N-2,
  not the map size N.
- **Init field order.** `init` reads the name from field 1 and the type from field 2. This
  does not match the `init,x,y,playerName,PlayerTypeEnum` format in the comment above the
  loop. The model follows the code.
- **Runtime exceptions end the handler.** Any exception other than `SocketException` leaves
  the loop through the outer `catch` and ends the handler. The player is neither queued for
  removal nor deregistered. The model's `Abort` covers these cases:
  - `info[0]` of a line of commas alone;
  - a null player on `bye`, `update` or `attack`;
  - a missing field;
  - an unparsable number;
  - an unknown type name.
- **`bye` still collides.** `bye` does not skip the rest of the loop body. The departing
  player still takes part in one last collision check.
- **A second `init` rebinds.** The handler moves to a new player object. The first player
  stays registered and is never removed: a zombie player that other players keep seeing.
- **Unregistered UUID queue head.** `sync` bootstraps only the player at the head of the UUID
  queue. While that player is not yet registered, every other new player waits behind it.
  A client that sends `init` and then `bye` before the next tick leaves its UUID there for
  good: `updatePlayerList` adds the player and then removes it again, so it is never
  registered when `sync` runs, and the UUID is never polled. From then on no new player
  receives a spawn point (`DataSender.StuckTick`, `ClientHandler.StuckStep`).

## Left out

- Swing frames, dialogs, the spinner widget and `MainFrame`: user interface only. The
  spinner's range 20..50 becomes a precondition of `GenerateMap` and `OnStart`.
- Sockets, `PrintStream` output and `client.close()`: frames are returned as `Frame` values,
  and `FrameText` gives their text.
- Threads and concurrency: the handlers and the tick loop run as separate steps on one shared
  `World`. Interleavings inside a step are not modelled, and neither is the `ConcurrentHashMap`'s
  behaviour under concurrent modification.
- `Thread.sleep`, the `running` flag, `PatherServer.run` (the console command loop) and the
  accept loop: timing and lifecycle only.
- IEEE-754 doubles: coordinates, health and damage are reals. `Double.toString` and
  `Double.parseDouble` are function parameters (`show`, `num`). `Math.pow(d, 2)` is exact
  squaring.
- `Math.random`, `Collections.shuffle` and `UUID.randomUUID`: parameters (`random`, `Shuffle`,
  `Room` values, `newIds`).
- Logging and `printStackTrace`: no effect on state.
- `Integer.parseInt`: modelled for ASCII digits only. Java also accepts other Unicode
  decimal digits.
- ClientHandler.Session: it models one handler's loop over a sequence of inputs, without
  ticks in between. A null line (end of stream) is one more pass of the loop, not a
  termination.
- DataSender.SyncFrom: its own contract only states the number of frames and when the sync
  succeeds. Where each frame goes and what it lists are stated separately by
  `SyncRecipients` and `SyncSnapshots`.

=== FILE: client_handler.dfy ===
/**
 * `ClientHandler`: what one connection's handler does with each line its client sends,
 * including the melee collision check that follows every line.
 *
 * `Double.parseDouble` is the parameter `num` (None for the `NumberFormatException`), the
 * fresh `UUID.randomUUID()` is the parameter `uuid`, and the iteration order of the
 * registry's key set is the parameter `order`. Any exception other than a
 * `SocketException` ends `run()` altogether; the model calls that outcome `Abort` and keeps
 * the world as it stood when the exception was raised.
 */
module ClientHandler {
  import opened Wrappers
  import opened Text
  import opened Players
  import PlayersManager
  import opened Server
  import DataSender

  /** `collisionDist`: the square of the 1.5 block melee radius. */
  const CollisionDist: real := 1.5 * 1.5

  // ---------------------------------------------------------------------------
  // Collision

  /** Where the handler's own player stands, and who it is: all the scan reads of it. */
  datatype Spot = Spot(id: Id, x: real, y: real)

  function SpotOf(p: Player): Spot
  {
    Spot(p.id, p.x, p.y)
  }

  /** `Math.pow(d, 2)`. */
  function Sq(d: real): real
  {
    d * d
  }

  /** The target is another player, attacking, alive and within the melee radius. */
  predicate Hits(at: Spot, t: Player)
  {
    t.id != at.id && t.attacking && IsAlive(t) && Sq(t.x - at.x) + Sq(t.y - at.y) <= CollisionDist
  }

  /** Reference definition: the damage the targets `order` deal to a player at `at`. */
  function HitDamage(at: Spot, reg: PlayersManager.Registry, order: seq<Id>): real
    requires forall k :: 0 <= k < |order| ==> order[k] in reg
    decreases |order|
  {
    if |order| == 0 then 0.0
    else (if Hits(at, reg[order[0]]) then reg[order[0]].attackDamage else 0.0) + HitDamage(at, reg, order[1..])
  }

  /** Reference definition: some target of `order` hits a player at `at`. */
  predicate AnyHit(at: Spot, reg: PlayersManager.Registry, order: seq<Id>)
    requires forall k :: 0 <= k < |order| ==> order[k] in reg
  {
    exists k :: 0 <= k < |order| && Hits(at, reg[order[k]])
  }

  /** The `for` loop of the collision block: every hit sets the damaging flag and deals the
      target's attack damage; the flag says whether any target hit. */
  function Scan(p: Player, reg: PlayersManager.Registry, order: seq<Id>): (r: (Player, bool))
    requires forall k :: 0 <= k < |order| ==> order[k] in reg
    ensures SameIdentity(r.0, p) && SpotOf(r.0) == SpotOf(p)
    ensures r.0.attacking == p.attacking && r.0.attackDamage == p.attackDamage
    ensures r.1 ==> r.0.damaging
    ensures !r.1 ==> r.0.damaging == p.damaging
    decreases |order|
  {
    if |order| == 0 then (p, false)
    else
      var t := reg[order[0]];
      var hit := Hits(SpotOf(p), t);
      var q := if hit then Damage(SetDamaging(p, true), t.attackDamage) else p;
      var rest := Scan(q, reg, order[1..]);
      (rest.0, hit || rest.1)
  }

  /** The loop deals exactly the reference damage, and reports a hit exactly when there is
      one. */
  lemma {:induction false} ScanMeetsReference(p: Player, reg: PlayersManager.Registry, order: seq<Id>)
    requires forall k :: 0 <= k < |order| ==> order[k] in reg
    ensures Scan(p, reg, order).0.health == p.health - HitDamage(SpotOf(p), reg, order)
    ensures Scan(p, reg, order).1 <==> AnyHit(SpotOf(p), reg, order)
    decreases |order|
  {
    if |order| > 0 {
      var t := reg[order[0]];
      var q := if Hits(SpotOf(p), t) then Damage(SetDamaging(p, true), t.attackDamage) else p;
      assert SpotOf(q) == SpotOf(p);
      ScanMeetsReference(q, reg, order[1..]);
      if AnyHit(SpotOf(p), reg, order) && !Hits(SpotOf(p), t) {
        var k :| 0 <= k < |order| && Hits(SpotOf(p), reg[order[k]]);
        assert order[1..][k - 1] == order[k];
      }
      if AnyHit(SpotOf(p), reg, order[1..]) {
        var k :| 0 <= k < |order[1..]| && Hits(SpotOf(p), reg[order[1..][k]]);
        assert order[k + 1] == order[1..][k];
      }
    }
  }

  /** The collision block for the handler's own player object `p`: a living player takes
      the damage of every hit and is damaging exactly when hit; a dead one is only marked
      not damaging. */
  function CollideWith(p: Player, reg: PlayersManager.Registry, order: seq<Id>): (r: Player)
    requires forall k :: 0 <= k < |order| ==> order[k] in reg
    ensures SameIdentity(r, p) && SpotOf(r) == SpotOf(p)
    ensures r.attacking == p.attacking && r.attackDamage == p.attackDamage
    ensures !IsAlive(p) ==> r.health == p.health && !r.damaging
  {
    if IsAlive(p) then
      var s := Scan(p, reg, order);
      if s.1 then s.0 else SetDamaging(s.0, false)
    else SetDamaging(p, false)
  }

  /** What the collision block does, against the reference definitions. */
  lemma CollideWithMeetsReference(p: Player, reg: PlayersManager.Registry, order: seq<Id>)
    requires forall k :: 0 <= k < |order| ==> order[k] in reg
    ensures var r := CollideWith(p, reg, order);
      && r.health == (if IsAlive(p) then p.health - HitDamage(SpotOf(p), reg, order) else p.health)
      && (r.damaging <==> IsAlive(p) && AnyHit(SpotOf(p), reg, order))
  {
    ScanMeetsReference(p, reg, order);
  }

  /** The damage of a concatenation is the sum of the damages. */
  lemma {:induction false} HitDamageAppend(at: Spot, reg: PlayersManager.Registry, a: seq<Id>, b: seq<Id>)
    requires forall k :: 0 <= k < |a| ==> a[k] in reg
    requires forall k :: 0 <= k < |b| ==> b[k] in reg
    ensures forall k :: 0 <= k < |a + b| ==> (a + b)[k] in reg
    ensures HitDamage(at, reg, a + b) == HitDamage(at, reg, a) + HitDamage(at, reg, b)
    decreases |a|
  {
    assert forall k :: 0 <= k < |a + b| ==> (a + b)[k] in reg by {
      forall k | 0 <= k < |a + b| ensures (a + b)[k] in reg {
        if k < |a| { assert (a + b)[k] == a[k]; } else { assert (a + b)[k] == b[k - |a|]; }
      }
    }
    if |a| > 0 {
      HitDamageAppend(at, reg, a[1..], b);
      assert (a + b)[0] == a[0];
      assert (a + b)[1..] == a[1..] + b;
      var first := if Hits(at, reg[a[0]]) then reg[a[0]].attackDamage else 0.0;
      assert HitDamage(at, reg, a + b) == first + HitDamage(at, reg, a[1..] + b);
      assert HitDamage(at, reg, a) == first + HitDamage(at, reg, a[1..]);
    } else {
      assert a + b == b;
    }
  }

  /** The damage of one target, if it hits. */
  function DamageOf(at: Spot, t: Player): real
  {
    if Hits(at, t) then t.attackDamage else 0.0
  }

  /** `b` without its element at `i`. */
  function Without<T>(b: seq<T>, i: nat): (r: seq<T>)
    requires i < |b|
    ensures |r| + 1 == |b|
    ensures forall k :: 0 <= k < |r| ==> r[k] == if k < i then b[k] else b[k + 1]
  {
    b[..i] + b[i + 1..]
  }

  /** Taking one target out of the visiting order takes its damage out of the total. */
  lemma HitDamageWithout(at: Spot, reg: PlayersManager.Registry, b: seq<Id>, i: nat)
    requires forall k :: 0 <= k < |b| ==> b[k] in reg
    requires i < |b|
    ensures forall k :: 0 <= k < |Without(b, i)| ==> Without(b, i)[k] in reg
    ensures HitDamage(at, reg, b) == DamageOf(at, reg[b[i]]) + HitDamage(at, reg, Without(b, i))
  {
    var left, right := b[..i], b[i + 1..];
    assert b == left + ([b[i]] + right);
    HitDamageAppend(at, reg, left, [b[i]] + right);
    HitDamageAppend(at, reg, [b[i]], right);
    HitDamageAppend(at, reg, left, right);
  }

  /** The damage does not depend on the order the targets are visited in. */
  lemma {:induction false} HitDamagePermutation(at: Spot, reg: PlayersManager.Registry, a: seq<Id>, b: seq<Id>)
    requires forall k :: 0 <= k < |a| ==> a[k] in reg
    requires forall k :: 0 <= k < |b| ==> b[k] in reg
    requires multiset(a) == multiset(b)
    ensures HitDamage(at, reg, a) == HitDamage(at, reg, b)
    decreases |a|
  {
    if |a| > 0 {
      assert a[0] in multiset(b);
      var i :| 0 <= i < |b| && b[i] == a[0];
      RemoveOne(a, b, i);
      HitDamageWithout(at, reg, b, i);
      HitDamagePermutation(at, reg, a[1..], Without(b, i));
    } else {
      assert |b| == |multiset(b)| == 0;
    }
  }

  /** Two permutations of each other stay so once the first element is taken from both. */
  lemma RemoveOne<T>(a: seq<T>, b: seq<T>, i: nat)
    requires multiset(a) == multiset(b) && 0 < |a| && i < |b| && b[i] == a[0]
    ensures multiset(a[1..]) == multiset(Without(b, i))
  {
    assert a == [a[0]] + a[1..];
    assert b == b[..i] + [b[i]] + b[i + 1..];
    assert multiset(a[1..]) == multiset(a) - multiset{a[0]};
    assert multiset(Without(b, i)) == multiset(b) - multiset{b[i]};
  }

  /** Whether some target hits does not depend on the visiting order either. */
  lemma AnyHitPermutation(at: Spot, reg: PlayersManager.Registry, a: seq<Id>, b: seq<Id>)
    requires forall k :: 0 <= k < |a| ==> a[k] in reg
    requires forall k :: 0 <= k < |b| ==> b[k] in reg
    requires multiset(a) == multiset(b)
    ensures AnyHit(at, reg, a) <==> AnyHit(at, reg, b)
  {
    if AnyHit(at, reg, a) {
      var k :| 0 <= k < |a| && Hits(at, reg[a[k]]);
      assert a[k] in multiset(b);
      var j :| 0 <= j < |b| && b[j] == a[k];
    }
    if AnyHit(at, reg, b) {
      var k :| 0 <= k < |b| && Hits(at, reg[b[k]]);
      assert b[k] in multiset(a);
      var j :| 0 <= j < |a| && a[j] == b[k];
    }
  }

  /** The outcome of the collision block is the same for every visiting order of the same
      targets. */
  lemma CollideOrderFree(p: Player, reg: PlayersManager.Registry, a: seq<Id>, b: seq<Id>)
    requires forall k :: 0 <= k < |a| ==> a[k] in reg
    requires forall k :: 0 <= k < |b| ==> b[k] in reg
    requires multiset(a) == multiset(b)
    ensures CollideWith(p, reg, a) == CollideWith(p, reg, b)
  {
    CollideWithMeetsReference(p, reg, a);
    CollideWithMeetsReference(p, reg, b);
    HitDamagePermutation(SpotOf(p), reg, a, b);
    AnyHitPermutation(SpotOf(p), reg, a, b);
  }

  /** A living attacker one block away hits; one two blocks away does not. */
  lemma MeleeRadius(at: Spot, t: Player)
    requires t.id != at.id && t.attacking && IsAlive(t) && t.y == at.y
    ensures t.x == at.x + 1.0 ==> Hits(at, t)
    ensures t.x == at.x + 2.0 ==> !Hits(at, t)
  {
  }

  /** The ids of `order` that are still registered, in the same order: the key set's
      iteration once some keys are gone. */
  function Restrict(order: seq<Id>, reg: PlayersManager.Registry): (r: seq<Id>)
    ensures forall k :: 0 <= k < |r| ==> r[k] in reg
    ensures forall id :: id in r <==> id in order && id in reg
    ensures multiset(r) <= multiset(order)
    decreases |order|
  {
    if |order| == 0 then []
    else
      var rest := Restrict(order[1..], reg);
      assert order == [order[0]] + order[1..];
      if order[0] in reg then [order[0]] + rest else rest
  }

  /** Restricting to a registry that holds every listed id keeps the whole order. */
  lemma {:induction false} RestrictKeeps(order: seq<Id>, reg: PlayersManager.Registry)
    requires forall k :: 0 <= k < |order| ==> order[k] in reg
    ensures Restrict(order, reg) == order
    decreases |order|
  {
    if |order| > 0 {
      var rest := order[1..];
      assert order[0] in reg && forall k :: 0 <= k < |rest| ==> rest[k] == order[k + 1];
      RestrictKeeps(rest, reg);
      assert order == [order[0]] + rest;
    }
  }

  /** An iteration of a key set, restricted to a registry whose ids all belong to that key
      set, is an iteration of the smaller registry's key set. */
  lemma RestrictEnumerates(order: seq<Id>, before: PlayersManager.Registry, after: PlayersManager.Registry)
    requires DataSender.Enumerates(order, before)
    requires forall id :: id in after ==> id in before
    ensures DataSender.Enumerates(Restrict(order, after), after)
  {
    var r := Restrict(order, after);
    DataSender.EnumeratesCounts(order, before);
    forall id ensures multiset(r)[id] == multiset(after.Keys)[id] {
      if id in after {
        assert id in r;
        assert multiset(r)[id] <= multiset(order)[id] == multiset(before.Keys)[id] == 1;
      } else {
        assert id !in r;
      }
    }
    assert multiset(r) == multiset(after.Keys);
    DataSender.EnumeratesCounts(r, after);
  }

  /** The collision block of the handler bound to `player`, on the shared state: the
      player, if alive, takes the damage of every attacker in reach and is damaging exactly
      when there is one; a dead player only stops damaging. `order` is the iteration order
      of the registry's key set. */
  function Collide(w: World, player: Option<Id>, order: seq<Id>): (v: World)
    requires Valid(w) && (player.Some? ==> Known(w, player.value))
    requires DataSender.Enumerates(order, w.registry)
    ensures Valid(v) && Others(w, v, player)
    ensures player.Some? ==>
      var p := Deref(w, player.value);
      var q := Deref(v, player.value);
      && q.(health := p.health, damaging := p.damaging) == p
      && q.health == (if IsAlive(p) then p.health - HitDamage(SpotOf(p), w.registry, order) else p.health)
      && (q.damaging <==> IsAlive(p) && AnyHit(SpotOf(p), w.registry, order))
  {
    match player
    case None => w
    case Some(id) =>
      CollideWithMeetsReference(Deref(w, id), w.registry, order);
      WriteValid(w, CollideWith(Deref(w, id), w.registry, order));
      Write(w, CollideWith(Deref(w, id), w.registry, order))
  }

  /** The collision block gives the same state whatever order the key set is iterated in. */
  lemma CollideAnyOrder(w: World, player: Option<Id>, a: seq<Id>, b: seq<Id>)
    requires Valid(w) && (player.Some? ==> Known(w, player.value))
    requires DataSender.Enumerates(a, w.registry) && DataSender.Enumerates(b, w.registry)
    ensures Collide(w, player, a) == Collide(w, player, b)
  {
    DataSender.EnumeratesCounts(a, w.registry);
    DataSender.EnumeratesCounts(b, w.registry);
    if player.Some? {
      CollideOrderFree(Deref(w, player.value), w.registry, a, b);
    }
  }

  // ---------------------------------------------------------------------------
  // The commands

  /** The handler's own state: the client's stream and the player object it is bound to
      (null until the first `init`). */
  datatype Handler = Handler(out: Connection, player: Option<Id>)

  /** The handler's player, if any, is a live object. */
  predicate Bound(h: Handler, w: World)
  {
    h.player.Some? ==> Known(w, h.player.value)
  }

  /** Whether the loop goes on, stops (`flag = false`), or `run()` ends with an exception. */
  datatype Control = Continue | Stop | Abort

  datatype Outcome = Outcome(world: World, handler: Handler, control: Control)

  /** The `bye` branch: queue the player's removal and unregister it at once; None for the
      `NullPointerException` of a handler with no player. */
  function Bye(w: World, h: Handler): (r: Option<World>)
    requires Valid(w) && Bound(h, w)
    ensures r.Some? <==> h.player.Some?
    ensures r.Some? ==> Valid(r.value)
    ensures r.Some? ==> h.player.value !in r.value.registry && r.value.removes == w.removes + [h.player.value]
    ensures r.Some? ==> r.value.adds == w.adds && r.value.uuids == w.uuids
    ensures r.Some? ==> forall id :: Known(w, id) ==> Known(r.value, id) && Deref(r.value, id) == Deref(w, id)
    ensures r.Some? ==> forall id :: id in r.value.registry <==> id in w.registry && id != h.player.value
  {
    match h.player
    case None => None
    case Some(id) =>
      QueuedValid(w, id);
      DeregisterValid(DataSender.RemovePlayer(w, id), id);
      Some(Deregister(DataSender.RemovePlayer(w, id), id))
  }

  lemma QueuedValid(w: World, id: Id)
    requires Valid(w) && Known(w, id)
    ensures Valid(DataSender.AddPlayer(w, id)) && Valid(DataSender.RemovePlayer(w, id))
  {
    DataSender.QueueValid(w, id);
  }

  /** `Player(out, uuid, info[1], info[2], -1, -1)` for the fresh id: created, queued for
      addition, and bound to the handler in place of any earlier player. None for a missing
      field or a type name `PlayerType` does not know. */
  function Init(w: World, h: Handler, info: seq<string>, uuid: Id): (r: Option<(World, Handler)>)
    requires Valid(w) && !Known(w, uuid)
    ensures r.Some? <==> |info| >= 3 && ParseType(info[2]).Some?
    ensures r.Some? ==> Valid(r.value.0) && r.value.1 == h.(player := Some(uuid))
    ensures r.Some? ==> r.value.0.registry == w.registry
    ensures r.Some? ==> r.value.0.adds == w.adds + [uuid] && r.value.0.uuids == w.uuids + [uuid]
    ensures r.Some? ==> r.value.0.removes == w.removes
    ensures r.Some? ==> Known(r.value.0, uuid) && Deref(r.value.0, uuid).name == info[1]
    ensures r.Some? ==> Deref(r.value.0, uuid) == NewPlayer(h.out, uuid, info[1], info[2], -1.0, -1.0).value
    ensures r.Some? ==> forall id :: Known(w, id) ==> Known(r.value.0, id) && Deref(r.value.0, id) == Deref(w, id)
  {
    if |info| < 3 then None
    else
      match NewPlayer(h.out, uuid, info[1], info[2], -1.0, -1.0)
      case None => None
      case Some(p) =>
        CreateValid(w, p);
        QueuedValid(Create(w, p), uuid);
        Some((DataSender.AddPlayer(Create(w, p), uuid), h.(player := Some(uuid))))
  }

  /** The two coordinates of `update` and `attack`, parsed in order. */
  function Coordinates(info: seq<string>, num: string -> Option<real>): (r: Option<(real, real)>)
    ensures r.Some? <==> |info| >= 3 && num(info[1]).Some? && num(info[2]).Some?
    ensures r.Some? ==> r.value == (num(info[1]).value, num(info[2]).value)
  {
    if |info| < 2 || num(info[1]).None? then None
    else if |info| < 3 || num(info[2]).None? then None
    else Some((num(info[1]).value, num(info[2]).value))
  }

  /** Every object but the handler's own is as it was, and registered as it was; the
      change queues are as they were. */
  ghost predicate Others(w: World, v: World, player: Option<Id>)
  {
    && v.registry.Keys == w.registry.Keys && v.detached.Keys == w.detached.Keys
    && v.uuids == w.uuids && v.adds == w.adds && v.removes == w.removes
    && (forall id :: Known(w, id) && Some(id) != player ==> Deref(v, id) == Deref(w, id))
  }

  /** `update,x,y`: the player moves there and stops attacking. None when a coordinate is
      missing or unreadable, or no player is bound. */
  function Update(w: World, h: Handler, info: seq<string>, num: string -> Option<real>): (r: Option<World>)
    requires Valid(w) && Bound(h, w)
    ensures r.Some? <==> Coordinates(info, num).Some? && h.player.Some?
    ensures r.Some? ==> Valid(r.value) && Others(w, r.value, h.player)
    ensures r.Some? ==> var p := Deref(r.value, h.player.value);
      && (p.x, p.y) == Coordinates(info, num).value && !p.attacking
      && p.health == Deref(w, h.player.value).health
      && p.attackDamage == Deref(w, h.player.value).attackDamage
    ensures r.Some? ==> var xy := Coordinates(info, num).value;
      Deref(r.value, h.player.value) == Deref(w, h.player.value).(x := xy.0, y := xy.1, attacking := false)
  {
    match Coordinates(info, num)
    case None => None
    case Some(xy) =>
      match h.player
      case None => None
      case Some(id) =>
        var p := SetAttacking(SetY(SetX(Deref(w, id), xy.0), xy.1), false);
        WriteValid(w, p);
        Some(Write(w, p))
  }

  /** `attack,x,y,damage`: the player starts attacking and moves, and only then is the
      damage read. The first result is the state reached; the second is false when an
      exception ended the command: a missing or unreadable coordinate or no bound player
      (nothing changed yet), or a missing or unreadable damage (after the move). */
  function Attack(w: World, h: Handler, info: seq<string>, num: string -> Option<real>): (r: (World, bool))
    requires Valid(w) && Bound(h, w)
    ensures Valid(r.0) && Others(w, r.0, h.player)
    ensures r.1 <==> Coordinates(info, num).Some? && h.player.Some? && |info| >= 4 && num(info[3]).Some?
    ensures Coordinates(info, num).Some? && h.player.Some? ==> var p := Deref(r.0, h.player.value);
      && p.attacking && (p.x, p.y) == Coordinates(info, num).value
      && p.health == Deref(w, h.player.value).health
    ensures r.1 ==> Deref(r.0, h.player.value).attackDamage == num(info[3]).value
    ensures Coordinates(info, num).None? || h.player.None? ==> r.0 == w
    ensures Coordinates(info, num).Some? && h.player.Some? ==>
      var p := Deref(w, h.player.value);
      var xy := Coordinates(info, num).value;
      Deref(r.0, h.player.value) ==
        p.(attacking := true, x := xy.0, y := xy.1, attackDamage := if r.1 then num(info[3]).value else p.attackDamage)
  {
    match Coordinates(info, num)
    case None => (w, false)
    case Some(xy) =>
      match h.player
      case None => (w, false)
      case Some(id) =>
        var moved := SetY(SetX(SetAttacking(Deref(w, id), true), xy.0), xy.1);
        if |info| < 4 || num(info[3]).None? then
          WriteValid(w, moved);
          (Write(w, moved), false)
        else
          var p := SetAttackDamage(moved, num(info[3]).value);
          WriteValid(w, p);
          (Write(w, p), true)
  }

  /** The change queues of `v` extend those of `w`: the uuid and add queues by at most the
      fresh id, the remove queue by anything. */
  predicate QueuesGrow(w: World, v: World, uuid: Id)
  {
    && (v.uuids == w.uuids || v.uuids == w.uuids + [uuid])
    && (v.adds == w.adds || v.adds == w.adds + [uuid])
    && w.removes <= v.removes
  }

  /** The branch a line's fields select; any other command (`KEEPLIVE`) does nothing. */
  function Dispatch(w: World, h: Handler, info: seq<string>, uuid: Id, num: string -> Option<real>): (r: Outcome)
    requires Valid(w) && Bound(h, w) && !Known(w, uuid)
    ensures Valid(r.world) && Bound(r.handler, r.world) && r.handler.out == h.out
    ensures r.control == Abort <==> (|info| == 0
      || (info[0] == "bye" && h.player.None?)
      || (info[0] == "init" && Init(w, h, info, uuid).None?)
      || (info[0] == "update" && Update(w, h, info, num).None?)
      || (info[0] == "attack" && !Attack(w, h, info, num).1))
    ensures r.control == Stop <==> |info| > 0 && info[0] == "bye" && h.player.Some?
    ensures r.handler.player != h.player ==> |info| > 0 && info[0] == "init"
    ensures forall id :: Known(w, id) ==> Known(r.world, id)
    ensures forall id :: id in r.world.registry ==> id in w.registry
    ensures forall id :: Known(w, id) && Some(id) != h.player ==>
      Deref(r.world, id) == Deref(w, id) && (id in r.world.registry <==> id in w.registry)
    ensures QueuesGrow(w, r.world, uuid)
    ensures r.control == Abort && !(|info| > 0 && info[0] == "attack") ==> r.world == w && r.handler == h
    ensures |info| > 0 && info[0] == "bye" && h.player.Some? ==> r.world == Bye(w, h).value && r.handler == h
    ensures |info| > 0 && info[0] == "init" && Init(w, h, info, uuid).Some? ==>
      (r.world, r.handler) == Init(w, h, info, uuid).value
    ensures |info| > 0 && info[0] == "update" && Update(w, h, info, num).Some? ==>
      r.world == Update(w, h, info, num).value && r.handler == h
    ensures |info| > 0 && info[0] == "attack" ==> r.world == Attack(w, h, info, num).0 && r.handler == h
    ensures |info| > 0 && info[0] != "bye" && info[0] != "init" && info[0] != "update" && info[0] != "attack" ==>
      r == Outcome(w, h, Continue)
  {
    if |info| == 0 then Outcome(w, h, Abort)
    else if info[0] == "bye" then
      match Bye(w, h)
      case None => Outcome(w, h, Abort)
      case Some(v) => Outcome(v, h, Stop)
    else if info[0] == "init" then
      match Init(w, h, info, uuid)
      case None => Outcome(w, h, Abort)
      case Some(vh) => Outcome(vh.0, vh.1, Continue)
    else if info[0] == "update" then
      match Update(w, h, info, num)
      case None => Outcome(w, h, Abort)
      case Some(v) => Outcome(v, h, Continue)
    else if info[0] == "attack" then
      var (v, done) := Attack(w, h, info, num);
      Outcome(v, h, if done then Continue else Abort)
    else Outcome(w, h, Continue)
  }

  // ---------------------------------------------------------------------------
  // One pass of the loop

  /** What `readLine` gives: a line, the null of a closed stream, or a `SocketException`. */
  datatype Input = Line(text: string) | EndOfStream | SocketError

  /** One pass of the `while` loop of `run()`. A line is split at ',' and dispatched; unless
      that raised an exception, the collision block then runs for whatever player the
      handler is bound to, over the ids registered at that point (`order` being the key
      set's iteration order before the line). A null line is skipped. A `SocketException`
      queues the bound player's removal, unregisters it and stops the loop. */
  function Step(w: World, h: Handler, input: Input, order: seq<Id>, uuid: Id, num: string -> Option<real>): (r: Outcome)
    requires Valid(w) && Bound(h, w) && !Known(w, uuid) && DataSender.Enumerates(order, w.registry)
    ensures Valid(r.world) && Bound(r.handler, r.world) && r.handler.out == h.out
    ensures r.control == Abort ==> input.Line?
    ensures r.control == Stop <==> input.SocketError? || (input.Line? && Said(input.text, "bye") && h.player.Some?)
    ensures forall id :: Known(w, id) ==> Known(r.world, id)
    ensures forall id :: id in r.world.registry ==> id in w.registry
    ensures forall id :: Known(w, id) && Some(id) != h.player ==>
      Deref(r.world, id) == Deref(w, id) && (id in r.world.registry <==> id in w.registry)
    ensures QueuesGrow(w, r.world, uuid)
    ensures input.EndOfStream? ==> r == Outcome(w, h, Continue)
    ensures input.SocketError? ==> r.handler == h && r.world == if h.player.Some? then Bye(w, h).value else w
    ensures input.Line? && r.control == Abort ==> r == Dispatch(w, h, JavaSplit(input.text, ','), uuid, num)
    ensures input.Line? && r.control != Abort ==>
      var d := Dispatch(w, h, JavaSplit(input.text, ','), uuid, num);
      r.handler == d.handler && Others(d.world, r.world, d.handler.player)
  {
    match input
    case EndOfStream => Outcome(w, h, Continue)
    case SocketError =>
      (match Bye(w, h)
       case None => Outcome(w, h, Stop)
       case Some(v) => Outcome(v, h, Stop))
    case Line(s) =>
      var d := Dispatch(w, h, JavaSplit(s, ','), uuid, num);
      if d.control == Abort then d
      else
        RestrictEnumerates(order, w.registry, d.world.registry);
        Outcome(Collide(d.world, d.handler.player, Restrict(order, d.world.registry)), d.handler, d.control)
  }

  /** The line's first comma-separated field is `command`. */
  predicate Said(s: string, command: string)
  {
    |JavaSplit(s, ',')| > 0 && JavaSplit(s, ',')[0] == command
  }

  // ---------------------------------------------------------------------------
  // Properties of a pass

  /** A line with no fields at all (only commas) ends `run()` with the
      `ArrayIndexOutOfBoundsException` of `info[0]`, changing nothing. */
  lemma OnlyCommasAborts(w: World, h: Handler, n: nat, order: seq<Id>, uuid: Id, num: string -> Option<real>)
    requires Valid(w) && Bound(h, w) && !Known(w, uuid) && n > 0
    requires DataSender.Enumerates(order, w.registry)
    ensures var r := Step(w, h, Line(seq(n, _ => ',')), order, uuid, num);
      r.control == Abort && r.world == w
  {
    var s := seq(n, _ => ',');
    assert s[0] == ',';
    SplitSeparatorsOnly(s, ',');
  }

  /** `bye` before any `init` ends `run()` with the `NullPointerException` of
      `player.getName()`, changing nothing. */
  lemma ByeBeforeInitAborts(w: World, h: Handler, s: string, order: seq<Id>, uuid: Id, num: string -> Option<real>)
    requires Valid(w) && Bound(h, w) && !Known(w, uuid) && h.player.None? && Said(s, "bye")
    requires DataSender.Enumerates(order, w.registry)
    ensures Step(w, h, Line(s), order, uuid, num) == Outcome(w, h, Abort)
  {
  }

  /** `bye` unregisters the player and queues its removal, and stops the loop; the collision
      block still runs for it once more, now against the other registered players. */
  lemma ByeStillCollides(w: World, h: Handler, s: string, order: seq<Id>, uuid: Id, num: string -> Option<real>)
    requires Valid(w) && Bound(h, w) && !Known(w, uuid) && h.player.Some? && Said(s, "bye")
    requires DataSender.Enumerates(order, w.registry)
    ensures var r := Step(w, h, Line(s), order, uuid, num);
      var id := h.player.value;
      var left := Bye(w, h).value;
      && r.control == Stop && id !in r.world.registry
      && r.world.removes == w.removes + [id]
      && Deref(r.world, id) == CollideWith(Deref(w, id), left.registry, Restrict(order, left.registry))
  {
  }

  /** A second `init` binds the handler to a new player and leaves the first one as it was:
      still registered (or queued), never removed. */
  lemma SecondInitKeepsFirst(w: World, h: Handler, s: string, order: seq<Id>, uuid: Id, num: string -> Option<real>)
    requires Valid(w) && Bound(h, w) && !Known(w, uuid) && h.player.Some? && Said(s, "init")
    requires DataSender.Enumerates(order, w.registry)
    requires Step(w, h, Line(s), order, uuid, num).control != Abort
    ensures var r := Step(w, h, Line(s), order, uuid, num);
      var first := h.player.value;
      && r.handler.player == Some(uuid) && r.control == Continue
      && Known(r.world, first) && Deref(r.world, first) == Deref(w, first)
      && (first in w.registry ==> first in r.world.registry)
      && r.world.removes == w.removes
  {
    var info := JavaSplit(s, ',');
    var d := Dispatch(w, h, info, uuid, num);
    assert d.world == Init(w, h, info, uuid).value.0;
  }

  /** A line whose first field names no command (`KEEPLIVE`) changes nothing but what the
      collision block does. */
  lemma OtherCommandOnlyCollides(w: World, h: Handler, s: string, order: seq<Id>, uuid: Id, num: string -> Option<real>)
    requires Valid(w) && Bound(h, w) && !Known(w, uuid)
    requires DataSender.Enumerates(order, w.registry)
    requires !Said(s, "bye") && !Said(s, "init") && !Said(s, "update") && !Said(s, "attack")
    requires |JavaSplit(s, ',')| > 0
    ensures Step(w, h, Line(s), order, uuid, num) == Outcome(Collide(w, h.player, order), h, Continue)
  {
    RestrictKeeps(order, w.registry);
  }

  /** A good `init` binds the handler to the new player at (-1, -1); the collision block
      then runs for that unregistered player against the registered ones. */
  lemma InitThenCollides(w: World, h: Handler, s: string, order: seq<Id>, uuid: Id, num: string -> Option<real>)
    requires Valid(w) && Bound(h, w) && !Known(w, uuid) && Said(s, "init")
    requires DataSender.Enumerates(order, w.registry)
    requires Init(w, h, JavaSplit(s, ','), uuid).Some?
    ensures var r := Step(w, h, Line(s), order, uuid, num);
      var info := JavaSplit(s, ',');
      && r.control == Continue && r.handler.player == Some(uuid)
      && Deref(r.world, uuid) == CollideWith(NewPlayer(h.out, uuid, info[1], info[2], -1.0, -1.0).value, w.registry, order)
  {
    var info := JavaSplit(s, ',');
    var (created, bound) := Init(w, h, info, uuid).value;
    var d := Dispatch(w, h, info, uuid, num);
    assert d == Outcome(created, bound, Continue);
    RestrictKeeps(order, created.registry);
    assert Step(w, h, Line(s), order, uuid, num) == Outcome(Collide(created, bound.player, order), bound, Continue);
  }

  /** A good `update` moves the player and clears its attacking flag; the collision block
      then runs for the moved player against the registered players. */
  lemma UpdateThenCollides(w: World, h: Handler, s: string, order: seq<Id>, uuid: Id, num: string -> Option<real>)
    requires Valid(w) && Bound(h, w) && !Known(w, uuid) && Said(s, "update")
    requires DataSender.Enumerates(order, w.registry)
    requires Update(w, h, JavaSplit(s, ','), num).Some?
    ensures var r := Step(w, h, Line(s), order, uuid, num);
      var id := h.player.value;
      var moved := Update(w, h, JavaSplit(s, ','), num).value;
      var xy := Coordinates(JavaSplit(s, ','), num).value;
      && r.control == Continue && r.handler == h
      && Deref(moved, id) == Deref(w, id).(x := xy.0, y := xy.1, attacking := false)
      && Deref(r.world, id) == CollideWith(Deref(moved, id), moved.registry, order)
  {
    var info := JavaSplit(s, ',');
    var moved := Update(w, h, info, num).value;
    var d := Dispatch(w, h, info, uuid, num);
    assert d == Outcome(moved, h, Continue);
    RestrictKeeps(order, moved.registry);
    assert Step(w, h, Line(s), order, uuid, num) == Outcome(Collide(moved, h.player, order), h, Continue);
  }

  /** A complete `attack` moves the player, sets it attacking with the new damage; the
      collision block then runs for it against the registered players. */
  lemma AttackThenCollides(w: World, h: Handler, s: string, order: seq<Id>, uuid: Id, num: string -> Option<real>)
    requires Valid(w) && Bound(h, w) && !Known(w, uuid) && Said(s, "attack")
    requires DataSender.Enumerates(order, w.registry)
    requires Attack(w, h, JavaSplit(s, ','), num).1
    ensures var r := Step(w, h, Line(s), order, uuid, num);
      var info := JavaSplit(s, ',');
      var id := h.player.value;
      var moved := Attack(w, h, info, num).0;
      var xy := Coordinates(info, num).value;
      && r.control == Continue && r.handler == h
      && Deref(moved, id) == Deref(w, id).(attacking := true, x := xy.0, y := xy.1, attackDamage := num(info[3]).value)
      && Deref(r.world, id) == CollideWith(Deref(moved, id), moved.registry, order)
  {
    var info := JavaSplit(s, ',');
    var moved := Attack(w, h, info, num).0;
    var d := Dispatch(w, h, info, uuid, num);
    assert d == Outcome(moved, h, Continue);
    RestrictKeeps(order, moved.registry);
    assert Step(w, h, Line(s), order, uuid, num) == Outcome(Collide(moved, h.player, order), h, Continue);
  }

  /** An `attack` whose damage field is missing or unreadable ends `run()`, but only after
      the player has started attacking at the new coordinates. */
  lemma AttackMovesBeforeDamage(w: World, h: Handler, s: string, order: seq<Id>, uuid: Id, num: string -> Option<real>)
    requires Valid(w) && Bound(h, w) && !Known(w, uuid) && h.player.Some? && Said(s, "attack")
    requires DataSender.Enumerates(order, w.registry)
    requires Coordinates(JavaSplit(s, ','), num).Some?
    requires |JavaSplit(s, ',')| < 4 || num(JavaSplit(s, ',')[3]).None?
    ensures var r := Step(w, h, Line(s), order, uuid, num);
      var p := Deref(r.world, h.player.value);
      && r.control == Abort && p.attacking
      && (p.x, p.y) == Coordinates(JavaSplit(s, ','), num).value
  {
  }

  /** No pass of a handler unsticks a stuck uuid queue: `init` queues only a fresh id, so
      the unregistered head is never queued for adding again, and nothing else touches the
      front of the queue or registers anyone. */
  lemma StuckStep(w: World, h: Handler, input: Input, order: seq<Id>, uuid: Id, num: string -> Option<real>)
    requires Valid(w) && Bound(h, w) && !Known(w, uuid)
    requires DataSender.Enumerates(order, w.registry)
    requires DataSender.Stuck(w)
    ensures var v := Step(w, h, input, order, uuid, num).world;
      DataSender.Stuck(v) && v.uuids[0] == w.uuids[0]
  {
    StuckKept(w, Step(w, h, input, order, uuid, num).world, uuid);
  }

  /** Growing the queues by a fresh id, without registering anyone, keeps a stuck queue
      stuck at the same head. */
  lemma StuckKept(w: World, v: World, uuid: Id)
    requires Valid(w) && !Known(w, uuid) && DataSender.Stuck(w)
    requires QueuesGrow(w, v, uuid) && forall id :: id in v.registry ==> id in w.registry
    ensures DataSender.Stuck(v) && v.uuids[0] == w.uuids[0]
  {
    var head := w.uuids[0];
    assert head != uuid;
    assert head in v.adds ==> head in w.adds;
    assert head in w.removes ==> head in v.removes;
  }

  // ---------------------------------------------------------------------------
  // The loop

  /** The `while (flag && instance.isRunning())` loop over the inputs the client sends
      while the server runs: it ends at the first `Stop` or `Abort`, or when the inputs run
      out. `orders(w)` is the key set's iteration order in state `w`, and `newIds(w)` the
      UUID drawn in state `w`. */
  function Session(w: World, h: Handler, inputs: seq<Input>, orders: World -> seq<Id>, newIds: World -> Id,
                   num: string -> Option<real>): (r: Outcome)
    requires Valid(w) && Bound(h, w)
    requires forall v :: !Known(v, newIds(v))
    requires forall v :: DataSender.Enumerates(orders(v), v.registry)
    ensures Valid(r.world) && Bound(r.handler, r.world) && r.handler.out == h.out
    ensures |inputs| == 0 ==> r == Outcome(w, h, Continue)
    ensures forall id :: Known(w, id) ==> Known(r.world, id)
    decreases |inputs|
  {
    if |inputs| == 0 then Outcome(w, h, Continue)
    else
      var r := Step(w, h, inputs[0], orders(w), newIds(w), num);
      if r.control != Continue then r
      else Session(r.world, r.handler, inputs[1..], orders, newIds, num)
  }

  /** A session ends early only at a stop or an abort, and a stop is what a socket error or
      a `bye` of a bound player gives. */
  lemma {:induction false} SessionEnds(w: World, h: Handler, inputs: seq<Input>, orders: World -> seq<Id>,
                                        newIds: World -> Id, num: string -> Option<real>)
    requires Valid(w) && Bound(h, w)
    requires forall v :: !Known(v, newIds(v))
    requires forall v :: DataSender.Enumerates(orders(v), v.registry)
    ensures Session(w, h, inputs, orders, newIds, num).control == Continue ==>
      forall k :: 0 <= k < |inputs| ==> inputs[k] != SocketError
    decreases |inputs|
  {
    if |inputs| > 0 {
      var r := Step(w, h, inputs[0], orders(w), newIds(w), num);
      if r.control == Continue {
        assert inputs[0] != SocketError;
        assert Session(w, h, inputs, orders, newIds, num) == Session(r.world, r.handler, inputs[1..], orders, newIds, num);
        SessionEnds(r.world, r.handler, inputs[1..], orders, newIds, num);
        assert forall k :: 1 <= k < |inputs| ==> inputs[k] == inputs[1..][k - 1];
      }
    }
  }
}

=== FILE: data_sender.dfy ===
/**
 * `DataSender`: the deferred add and remove queues, the per-tick frames and the tick itself.
 *
 * `Double.toString` is the parameter `show`, the random numbers `getRandomSpawnPoint` draws
 * are the parameter `random` (one per recipient position in the iteration), and the
 * registry's iteration order is the parameter `order`, an enumeration of its ids.
 */
module DataSender {
  import opened Wrappers
  import opened Text
  import opened Decimal
  import opened Maze
  import opened Players
  import PlayersManager
  import opened Server
  import opened GameMap

  // ---------------------------------------------------------------------------
  // The queues

  /** `addPlayer(p)`: `p` joins the add queue and its id the uuid queue. */
  function AddPlayer(w: World, id: Id): (v: World)
    ensures v.adds == w.adds + [id] && v.uuids == w.uuids + [id] && v.removes == w.removes
    ensures v.registry == w.registry && v.detached == w.detached
  {
    w.(adds := w.adds + [id], uuids := w.uuids + [id])
  }

  /** `removePlayer(p)`: `p` joins the remove queue only. */
  function RemovePlayer(w: World, id: Id): (v: World)
    ensures v.removes == w.removes + [id] && v.adds == w.adds && v.uuids == w.uuids
    ensures v.registry == w.registry && v.detached == w.detached
  {
    w.(removes := w.removes + [id])
  }

  /** Queueing keeps the world valid when the queued object exists. */
  lemma QueueValid(w: World, id: Id)
    requires Valid(w) && Known(w, id)
    ensures Valid(AddPlayer(w, id)) && Valid(RemovePlayer(w, id))
  {
    var a := AddPlayer(w, id);
    var r := RemovePlayer(w, id);
    assert forall k :: 0 <= k < |a.adds| ==> Known(a, a.adds[k]);
    assert forall k :: 0 <= k < |a.uuids| ==> Known(a, a.uuids[k]);
    assert forall k :: 0 <= k < |r.removes| ==> Known(r, r.removes[k]);
  }

  // ---------------------------------------------------------------------------
  // updatePlayerList

  /** The first loop of `updatePlayerList`: register the objects `ids` in order. */
  function RegisterAll(w: World, ids: seq<Id>): (v: World)
    requires Sound(w) && forall k :: 0 <= k < |ids| ==> Known(w, ids[k])
    ensures Sound(v)
    ensures forall id :: id in v.registry <==> id in w.registry || id in ids
    ensures forall id :: Known(v, id) <==> Known(w, id)
    ensures v.uuids == w.uuids && v.adds == w.adds && v.removes == w.removes
    decreases |ids|
  {
    if |ids| == 0 then w
    else
      RegisterSound(w, ids[0]);
      RegisterAll(Register(w, ids[0]), ids[1..])
  }

  /** The second loop of `updatePlayerList`: unregister the ids `ids` in order. */
  function DeregisterAll(w: World, ids: seq<Id>): (v: World)
    requires Sound(w)
    ensures Sound(v)
    ensures forall id :: id in v.registry <==> id in w.registry && id !in ids
    ensures forall id :: Known(v, id) <==> Known(w, id)
    ensures v.uuids == w.uuids && v.adds == w.adds && v.removes == w.removes
    decreases |ids|
  {
    if |ids| == 0 then w
    else
      DeregisterSound(w, ids[0]);
      DeregisterAll(Deregister(w, ids[0]), ids[1..])
  }

  /** Registering moves objects between the maps but never changes one. */
  lemma {:induction false} RegisterAllKeeps(w: World, ids: seq<Id>, id: Id)
    requires Sound(w) && (forall k :: 0 <= k < |ids| ==> Known(w, ids[k])) && Known(w, id)
    ensures Deref(RegisterAll(w, ids), id) == Deref(w, id)
    decreases |ids|
  {
    if |ids| > 0 {
      RegisterSound(w, ids[0]);
      RegisterAllKeeps(Register(w, ids[0]), ids[1..], id);
    }
  }

  /** Unregistering moves objects between the maps but never changes one. */
  lemma {:induction false} DeregisterAllKeeps(w: World, ids: seq<Id>, id: Id)
    requires Sound(w) && Known(w, id)
    ensures Deref(DeregisterAll(w, ids), id) == Deref(w, id)
    decreases |ids|
  {
    if |ids| > 0 {
      DeregisterSound(w, ids[0]);
      DeregisterAllKeeps(Deregister(w, ids[0]), ids[1..], id);
    }
  }

  /** `updatePlayerList()`: everything queued for addition is registered, then everything
      queued for removal is unregistered; both queues end empty and the objects are the
      same objects. */
  function UpdatePlayerList(w: World): (v: World)
    requires Valid(w)
    ensures Valid(v) && v.adds == [] && v.removes == [] && v.uuids == w.uuids
    ensures forall id :: id in v.registry <==>
      (id in w.registry || id in w.adds) && id !in w.removes
  {
    var drained := World(w.registry, w.detached, w.uuids, [], []);
    assert Sound(drained) && forall k :: 0 <= k < |w.adds| ==> Known(drained, w.adds[k]);
    var v := DeregisterAll(RegisterAll(drained, w.adds), w.removes);
    assert forall k :: 0 <= k < |v.uuids| ==> Known(v, v.uuids[k]) by {
      assert forall k :: 0 <= k < |v.uuids| ==> Known(w, v.uuids[k]);
    }
    v
  }
  /** The objects after `updatePlayerList()` are the objects before it: it only changes
      which of them are registered. */
  lemma UpdateKeepsObjects(w: World, id: Id)
    requires Valid(w) && Known(w, id)
    ensures Known(UpdatePlayerList(w), id) && Deref(UpdatePlayerList(w), id) == Deref(w, id)
  {
    var drained := World(w.registry, w.detached, w.uuids, [], []);
    RegisterAllKeeps(drained, w.adds, id);
    DeregisterAllKeeps(RegisterAll(drained, w.adds), w.removes, id);
  }


  // ---------------------------------------------------------------------------
  // Records and frames

  /** The nine fields a frame shows of one player, as text. */
  datatype Row = Row(
    dead: bool,
    attacking: bool,
    damaging: bool,
    id: string,
    name: string,
    typeName: string,
    x: string,
    y: string,
    health: string)

  /** What a record should show of `p`: the damaging flag only while alive. */
  function RowOf(p: Player, show: real -> string): Row
  {
    Row(!IsAlive(p), p.attacking, p.damaging && IsAlive(p), p.id, p.name, TypeName(p.kind),
        show(p.x), show(p.y), show(p.health))
  }

  function RowFields(r: Row): seq<string>
  {
    [if r.dead then "DIED" else "NORMAL",
     if r.attacking then "ATTACKING" else "NORMAL",
     if r.damaging then "DAMAGING" else "NORMAL",
     r.id, r.name, r.typeName, r.x, r.y, r.health]
  }

  /** One record of the inner loop of `sync`: the nine fields joined by '|'. */
  function Record(p: Player, show: real -> string): (s: string)
  {
    Join(RowFields(RowOf(p, show)), '|')
  }

  /** The records of the players `order` in that order, each followed by '%'. */
  function Records(reg: PlayersManager.Registry, order: seq<Id>, show: real -> string): string
    requires forall k :: 0 <= k < |order| ==> order[k] in reg
  {
    Terminated(seq(|order|, k requires 0 <= k < |order| => Record(reg[order[k]], show)), '%')
  }

  /** Whether nine fields can be read as a row: each flag field holds one of its two words. */
  predicate Readable(f: seq<string>)
  {
    |f| == 9 && f[0] in {"DIED", "NORMAL"} && f[1] in {"ATTACKING", "NORMAL"} && f[2] in {"DAMAGING", "NORMAL"}
  }

  /** The row nine fields describe. */
  function FieldsRow(f: seq<string>): Row
    requires |f| == 9
  {
    Row(f[0] == "DIED", f[1] == "ATTACKING", f[2] == "DAMAGING", f[3], f[4], f[5], f[6], f[7], f[8])
  }

  /** Readable fields are the fields of the row they describe. */
  lemma FieldsRowFields(f: seq<string>)
    requires Readable(f)
    ensures RowFields(FieldsRow(f)) == f
  {
  }

  /** The fields of a row are readable and describe that row. */
  lemma RowFieldsRow(row: Row)
    ensures Readable(RowFields(row)) && FieldsRow(RowFields(row)) == row
  {
  }

  /** Reading a record back; None when it has the wrong field count or a flag field holds
      anything but its two words. */
  function DecodeRecord(s: string): (r: Option<Row>)
    ensures r.Some? <==> Readable(Split(s, '|'))
    ensures r.Some? ==> Join(RowFields(r.value), '|') == s
  {
    var f := Split(s, '|');
    if !Readable(f) then None
    else
      JoinSplit(s, '|');
      FieldsRowFields(f);
      Some(FieldsRow(f))
  }

  /** Reading the records of a frame back: the '%'-terminated pieces, each decoded. */
  function DecodeRecords(s: string): (r: Option<seq<Row>>)
    ensures r.Some? ==> |r.value| + 1 == |Split(s, '%')|
  {
    var parts := Split(s, '%');
    if parts[|parts| - 1] != "" then None
    else DecodeAll(parts[..|parts| - 1])
  }

  function DecodeAll(parts: seq<string>): (r: Option<seq<Row>>)
    ensures r.Some? ==> |r.value| == |parts|
    decreases |parts|
  {
    if |parts| == 0 then Some([])
    else match (DecodeRecord(parts[0]), DecodeAll(parts[1..]))
      case (Some(row), Some(rows)) => Some([row] + rows)
      case _ => None
  }

  /** A text free of the record and field separators. */
  predicate Plain(s: string)
  {
    '|' !in s && '%' !in s
  }

  /** What `Double.toString` writes never holds a separator. */
  ghost predicate PlainNumbers(show: real -> string)
  {
    forall v :: Plain(show(v))
  }

  /** A player whose id and name hold no separator. */
  predicate PlainPlayer(p: Player)
  {
    Plain(p.id) && Plain(p.name)
  }

  /** Decoding a record gives back exactly the fields it was built from. */
  lemma RecordRoundTrip(p: Player, show: real -> string)
    requires PlainPlayer(p) && PlainNumbers(show)
    ensures DecodeRecord(Record(p, show)) == Some(RowOf(p, show))
    ensures '%' !in Record(p, show)
  {
    var row := RowOf(p, show);
    var fields := RowFields(row);
    FieldsPlain(p, show);
    SplitJoin(fields, '|');
    JoinFree(fields, '|', '%');
    RowFieldsRow(row);
  }

  lemma FieldsPlain(p: Player, show: real -> string)
    requires PlainPlayer(p) && PlainNumbers(show)
    ensures Free(RowFields(RowOf(p, show)), '|') && Free(RowFields(RowOf(p, show)), '%')
  {
    assert Plain(show(p.x)) && Plain(show(p.y)) && Plain(show(p.health));
    assert Plain(TypeName(p.kind));
  }

  /** Joining pieces free of `c` with a separator other than `c` gives a text free of `c`. */
  lemma {:induction false} JoinFree(parts: seq<string>, sep: char, c: char)
    requires sep != c && Free(parts, c)
    ensures c !in Join(parts, sep)
    decreases |parts|
  {
    if |parts| > 1 {
      JoinFree(parts[1..], sep, c);
    }
  }

  /** Decoding the records of a frame gives back one row per listed player, in order. */
  lemma RecordsRoundTrip(reg: PlayersManager.Registry, order: seq<Id>, show: real -> string)
    requires forall k :: 0 <= k < |order| ==> order[k] in reg && PlainPlayer(reg[order[k]])
    requires PlainNumbers(show)
    ensures DecodeRecords(Records(reg, order, show)) ==
      Some(seq(|order|, k requires 0 <= k < |order| => RowOf(reg[order[k]], show)))
  {
    var recs := seq(|order|, k requires 0 <= k < |order| => Record(reg[order[k]], show));
    forall k | 0 <= k < |recs| ensures '%' !in recs[k] && DecodeRecord(recs[k]) == Some(RowOf(reg[order[k]], show)) {
      RecordRoundTrip(reg[order[k]], show);
    }
    SplitTerminated(recs, '%');
    assert (recs + [""])[..|recs|] == recs;
    DecodeAllRows(recs, seq(|order|, k requires 0 <= k < |order| => RowOf(reg[order[k]], show)));
  }

  lemma {:induction false} DecodeAllRows(parts: seq<string>, rows: seq<Row>)
    requires |parts| == |rows|
    requires forall k :: 0 <= k < |parts| ==> DecodeRecord(parts[k]) == Some(rows[k])
    ensures DecodeAll(parts) == Some(rows)
    decreases |parts|
  {
    if |parts| > 0 {
      DecodeAllRows(parts[1..], rows[1..]);
      assert [rows[0]] + rows[1..] == rows;
    }
  }

  // ---------------------------------------------------------------------------
  // Bootstrap prefix

  /** `<id>#<x>,<y>#<mapStr>#`: what a newly joined player receives before its first
      records. */
  function Bootstrap(id: Id, at: Cell, mapStr: string): string
  {
    Terminated([id, IntString(at.0) + "," + IntString(at.1), mapStr], '#')
  }

  /** The prefix splits at '#' into the id, the spawn point and the map text; the spawn
      point reads back as the two coordinates. */
  lemma BootstrapRoundTrip(id: Id, at: Cell, mapStr: string)
    requires '#' !in id && '#' !in mapStr
    requires IntMin <= at.0 <= IntMax && IntMin <= at.1 <= IntMax
    ensures Split(Bootstrap(id, at, mapStr), '#') ==
      [id, IntString(at.0) + "," + IntString(at.1), mapStr, ""]
    ensures Split(IntString(at.0) + "," + IntString(at.1), ',') == [IntString(at.0), IntString(at.1)]
    ensures ParseInt(IntString(at.0)) == Some(at.0) && ParseInt(IntString(at.1)) == Some(at.1)
  {
    var point := IntString(at.0) + "," + IntString(at.1);
    IntStringPlain(at.0);
    IntStringPlain(at.1);
    assert Free([id, point, mapStr], '#');
    SplitTerminated([id, point, mapStr], '#');
    PointRoundTrip(at);
  }

  /** The spawn point text splits at ',' into the two coordinates, which read back. */
  lemma PointRoundTrip(at: Cell)
    requires IntMin <= at.0 <= IntMax && IntMin <= at.1 <= IntMax
    ensures Split(IntString(at.0) + "," + IntString(at.1), ',') == [IntString(at.0), IntString(at.1)]
    ensures ParseInt(IntString(at.0)) == Some(at.0) && ParseInt(IntString(at.1)) == Some(at.1)
  {
    var xs := IntString(at.0);
    var ys := IntString(at.1);
    IntStringPlain(at.0);
    IntStringPlain(at.1);
    SplitJoin([xs, ys], ',');
    assert Join([xs, ys], ',') == xs + "," + ys;
    ParseIntString(at.0);
    ParseIntString(at.1);
  }

  /** `Integer.toString` writes digits and a minus sign only. */
  lemma IntStringPlain(i: int)
    ensures '#' !in IntString(i) && ',' !in IntString(i) && '|' !in IntString(i)
  {
    var s := IntString(i);
    if i < 0 {
      assert s == "-" + NatString(-i);
      assert forall k :: 1 <= k < |s| ==> IsDigit(s[k]) by {
        forall k | 1 <= k < |s| ensures IsDigit(s[k]) {
          assert s[k] == NatString(-i)[k - 1];
        }
      }
    }
  }

  // ---------------------------------------------------------------------------
  // sync and the tick

  /** `order` is an iteration of the registry's key set: it lists registered ids only,
      every one of them, and no more entries than there are ids (so none twice). */
  predicate Enumerates(order: seq<Id>, reg: PlayersManager.Registry)
  {
    && |order| == |reg|
    && (forall k :: 0 <= k < |order| ==> order[k] in reg)
    && (forall id :: id in reg ==> id in order)
  }

  /** The ids a sequence lists. */
  function Listed(s: seq<Id>): set<Id>
  {
    set id | id in s
  }

  /** A sequence lists at most as many ids as it has entries. */
  lemma {:induction false} ListedSize(s: seq<Id>)
    ensures |Listed(s)| <= |s|
    decreases |s|
  {
    if |s| > 0 {
      ListedSize(s[1..]);
      assert Listed(s) == {s[0]} + Listed(s[1..]);
    }
  }

  /** A sequence as long as a set that lists every member of it cannot repeat its first
      entry: the rest would then list the whole set with one entry fewer. */
  lemma HeadOnce(s: seq<Id>, keys: set<Id>)
    requires 0 < |s| == |keys|
    requires forall id :: id in keys ==> id in s
    ensures s[0] !in s[1..]
  {
    var t := s[1..];
    if s[0] in t {
      assert keys <= Listed(t) by {
        forall id | id in keys ensures id in Listed(t) {
          var k :| 0 <= k < |s| && s[k] == id;
          assert k == 0 || t[k - 1] == id;
        }
      }
      assert Listed(t) == keys + (Listed(t) - keys);
      ListedSize(t);
      assert false;
    }
  }

  /** A sequence as long as a set, listing only members of it and every one of them, lists
      each member exactly once. */
  lemma {:induction false} CoverCounts(s: seq<Id>, keys: set<Id>)
    requires |s| == |keys|
    requires forall k :: 0 <= k < |s| ==> s[k] in keys
    requires forall id :: id in keys ==> id in s
    ensures multiset(s) == multiset(keys)
    decreases |s|
  {
    if |s| > 0 {
      var a, t := s[0], s[1..];
      assert s == [a] + t;
      HeadOnce(s, keys);
      var rest := keys - {a};
      forall id | id in rest ensures id in t {
        var k :| 0 <= k < |s| && s[k] == id;
        assert t[k - 1] == id;
      }
      CoverCounts(t, rest);
      assert multiset(keys) == multiset{a} + multiset(rest);
    }
  }

  /** An enumeration of the key set is exactly a sequence holding every registered id once. */
  lemma EnumeratesCounts(order: seq<Id>, reg: PlayersManager.Registry)
    ensures Enumerates(order, reg) <==> multiset(order) == multiset(reg.Keys)
  {
    if Enumerates(order, reg) {
      CoverCounts(order, reg.Keys);
    }
    if multiset(order) == multiset(reg.Keys) {
      assert |order| == |multiset(order)| == |multiset(reg.Keys)| == |reg.Keys|;
      assert forall k :: 0 <= k < |order| ==> order[k] in multiset(order);
      forall id | id in reg ensures id in order {
        assert id in multiset(reg.Keys);
      }
    }
  }

  /** What `sync` writes to the stream of the player `to`: the bootstrap greeting with the
      player's spawn point when the player is new, then the records of the registry as it
      stands at that moment. */
  datatype Frame = Frame(to: Id, spawn: Option<Cell>, snapshot: PlayersManager.Registry)

  /** The text of a frame: the bootstrap prefix, if any, then one record per player of
      `order`. */
  function FrameText(f: Frame, mapStr: string, order: seq<Id>, show: real -> string): string
    requires forall k :: 0 <= k < |order| ==> order[k] in f.snapshot
  {
    var prefix := match f.spawn
      case None => ""
      case Some(at) => Bootstrap(f.to, at, mapStr);
    prefix + Records(f.snapshot, order, show)
  }

  /** The state after serving one recipient, and its frame. */
  datatype Served = Served(world: World, frame: Frame)

  /** The head of the uuid queue is `id`. */
  predicate Heads(w: World, id: Id)
  {
    |w.uuids| > 0 && w.uuids[0] == id
  }

  /** One pass of the outer loop of `sync` for the recipient `id`: when the uuid queue's
      head is `id`, dequeue it, take the spawn point `at` that `getRandomSpawnPoint` returns,
      move the player there and greet it; the records then show the registry after the
      move. `at` is None when `getRandomSpawnPoint` throws, and then so is the result. */
  function Serve(w: World, at: Option<Cell>, id: Id): (r: Option<Served>)
    requires id in w.registry
    ensures r.None? <==> Heads(w, id) && at.None?
    ensures r.Some? ==> r.value.world.registry.Keys == w.registry.Keys
    ensures r.Some? ==> (PlayersManager.Keyed(w.registry) ==> PlayersManager.Keyed(r.value.world.registry))
    ensures r.Some? ==> r.value.frame.to == id && r.value.frame.snapshot == r.value.world.registry
    ensures r.Some? ==> r.value.frame.spawn == if Heads(w, id) then at else None
    ensures r.Some? ==> r.value.world.uuids == if Heads(w, id) then w.uuids[1..] else w.uuids
    ensures r.Some? ==> r.value.world.detached == w.detached && r.value.world.adds == w.adds && r.value.world.removes == w.removes
  {
    var p := w.registry[id];
    if Heads(w, id) then
      match at
      case None => None
      case Some(at) =>
        var v := w.(registry := w.registry[id := p.(x := at.0 as real, y := at.1 as real)],
                    uuids := w.uuids[1..]);
        Some(Served(v, Frame(id, Some(at), v.registry)))
    else
      Some(Served(w, Frame(id, None, w.registry)))
  }

  /** A greeted recipient, and nobody else, has moved to its spawn point; an ungreeted one
      leaves every player where it was. */
  lemma ServeMoves(w: World, at: Option<Cell>, id: Id, other: Id)
    requires id in w.registry && other in w.registry
    requires Serve(w, at, id).Some?
    ensures var r := Serve(w, at, id).value;
      match r.frame.spawn
      case None => r.world == w
      case Some(at) =>
        if other == id then r.world.registry[id] == w.registry[id].(x := at.0 as real, y := at.1 as real)
        else r.world.registry[other] == w.registry[other]
  {
  }

  /** Serving a recipient changes no player's identity or stream. */
  lemma ServeKeepsIdentity(w: World, at: Option<Cell>, id: Id, other: Id)
    requires id in w.registry && other in w.registry
    requires Serve(w, at, id).Some?
    ensures SameIdentity(Serve(w, at, id).value.world.registry[other], w.registry[other])
  {
    ServeMoves(w, at, id, other);
  }

  /** The outer loop of `sync` over the recipients `order[k..]`; `draw(k)` is what
      `getRandomSpawnPoint` returns if recipient `k` is greeted. */
  function SyncFrom(w: World, order: seq<Id>, draw: nat -> Option<Cell>, k: nat): (r: Option<(World, seq<Frame>)>)
    requires k <= |order|
    requires forall i :: 0 <= i < |order| ==> order[i] in w.registry
    ensures (forall i :: draw(i).Some?) ==> r.Some?
    ensures r.Some? ==> |r.value.1| == |order| - k
    decreases |order| - k
  {
    if k == |order| then Some((w, []))
    else
      match Serve(w, draw(k), order[k])
      case None => None
      case Some(served) =>
        match SyncFrom(served.world, order, draw, k + 1)
        case None => None
        case Some(rest) => Some((rest.0, [served.frame] + rest.1))
  }

  /** The pass changes registry entries and the uuid queue only: the same ids stay
      registered under their own ids, and the queue only loses entries from its front. */
  lemma {:induction false} SyncFromKeeps(w: World, order: seq<Id>, draw: nat -> Option<Cell>, k: nat)
    requires k <= |order|
    requires forall i :: 0 <= i < |order| ==> order[i] in w.registry
    requires SyncFrom(w, order, draw, k).Some?
    ensures var v := SyncFrom(w, order, draw, k).value.0;
      && v.registry.Keys == w.registry.Keys
      && (PlayersManager.Keyed(w.registry) ==> PlayersManager.Keyed(v.registry))
      && v.detached == w.detached && v.adds == w.adds && v.removes == w.removes
      && |v.uuids| <= |w.uuids| && v.uuids == w.uuids[|w.uuids| - |v.uuids|..]
    decreases |order| - k
  {
    if k < |order| {
      var served := Serve(w, draw(k), order[k]).value;
      SyncFromKeeps(served.world, order, draw, k + 1);
      assert served.world.uuids == w.uuids[|w.uuids| - |served.world.uuids|..];
    }
  }

  /** Frame `j - k` of the pass from `k` is addressed to `order[j]`, and lists the ids
      registered when the pass began. */
  lemma {:induction false} SyncRecipient(w: World, order: seq<Id>, draw: nat -> Option<Cell>, k: nat, j: nat)
    requires k <= j < |order|
    requires forall i :: 0 <= i < |order| ==> order[i] in w.registry
    requires SyncFrom(w, order, draw, k).Some?
    ensures SyncFrom(w, order, draw, k).value.1[j - k].to == order[j]
    ensures SyncFrom(w, order, draw, k).value.1[j - k].snapshot.Keys == w.registry.Keys
    decreases j - k
  {
    var served := Serve(w, draw(k), order[k]).value;
    if j > k {
      SyncRecipient(served.world, order, draw, k + 1, j);
      var rest := SyncFrom(served.world, order, draw, k + 1).value.1;
      assert SyncFrom(w, order, draw, k).value.1 == [served.frame] + rest;
    }
  }

  /** Frame `i` of a whole pass is addressed to `order[i]`. */
  lemma SyncRecipients(w: World, order: seq<Id>, draw: nat -> Option<Cell>)
    requires forall i :: 0 <= i < |order| ==> order[i] in w.registry
    requires SyncFrom(w, order, draw, 0).Some?
    ensures var frames := SyncFrom(w, order, draw, 0).value.1;
      forall i :: 0 <= i < |order| ==> frames[i].to == order[i]
  {
    forall i | 0 <= i < |order|
      ensures SyncFrom(w, order, draw, 0).value.1[i].to == order[i]
    {
      SyncRecipient(w, order, draw, 0, i);
    }
  }

  /** Every frame of a whole pass lists exactly the ids registered when it began. */
  lemma SyncSnapshots(w: World, order: seq<Id>, draw: nat -> Option<Cell>)
    requires forall i :: 0 <= i < |order| ==> order[i] in w.registry
    requires SyncFrom(w, order, draw, 0).Some?
    ensures var frames := SyncFrom(w, order, draw, 0).value.1;
      forall i :: 0 <= i < |order| ==> frames[i].snapshot.Keys == w.registry.Keys
  {
    forall i | 0 <= i < |order|
      ensures SyncFrom(w, order, draw, 0).value.1[i].snapshot.Keys == w.registry.Keys
    {
      SyncRecipient(w, order, draw, 0, i);
    }
  }

  /** A head of the uuid queue that names no registered player blocks the queue: nobody is
      greeted, and `sync` leaves the world as it was. */
  lemma {:induction false} BlockedHead(w: World, order: seq<Id>, draw: nat -> Option<Cell>, k: nat)
    requires k <= |order|
    requires forall i :: 0 <= i < |order| ==> order[i] in w.registry
    requires |w.uuids| > 0 && w.uuids[0] !in w.registry
    ensures SyncFrom(w, order, draw, k).Some?
    ensures SyncFrom(w, order, draw, k).value.0 == w
    ensures forall i :: 0 <= i < |order| - k ==> SyncFrom(w, order, draw, k).value.1[i].spawn.None?
    decreases |order| - k
  {
    if k < |order| {
      BlockedHead(w, order, draw, k + 1);
      var served := Serve(w, draw(k), order[k]).value;
      assert served.world == w && served.frame.spawn.None?;
      var rest := SyncFrom(w, order, draw, k + 1).value.1;
      assert SyncFrom(w, order, draw, k).value.1 == [served.frame] + rest;
    }
  }

  /** `getRandomSpawnPoint()` as `sync` calls it for recipient `k`, with `random(k)` the
      value `Math.random()` returns there. */
  function Draw(spawns: seq<Cell>, random: nat -> real): (draw: nat -> Option<Cell>)
    requires forall i :: 0.0 <= random(i) < 1.0
    ensures forall i :: draw(i).Some? <==> |spawns| > 0
    ensures forall i :: draw(i).Some? ==> draw(i).value in spawns
  {
    var draw := (i: nat) => RandomSpawnPoint(spawns, random(i));
    assert forall i: nat :: draw(i) == RandomSpawnPoint(spawns, random(i));
    draw
  }

  /** `sync()`: one frame per registered player, in iteration order, each to that player's
      stream. It registers and unregisters nobody and leaves both change queues alone.
      None stands for the exception an empty spawn list raises once a new player is to be
      placed. */
  function Sync(w: World, spawns: seq<Cell>, order: seq<Id>, random: nat -> real): (r: Option<(World, seq<Frame>)>)
    requires Valid(w) && Enumerates(order, w.registry)
    requires forall i :: 0.0 <= random(i) < 1.0
    ensures |spawns| > 0 ==> r.Some?
    ensures r.Some? ==> Valid(r.value.0) && |r.value.1| == |order| == |w.registry|
    ensures r.Some? ==> r.value.0.registry.Keys == w.registry.Keys
    ensures r.Some? ==> r.value.0.adds == w.adds && r.value.0.removes == w.removes
    ensures r.Some? ==> forall i :: 0 <= i < |order| ==> r.value.1[i].to == order[i]
  {
    var draw := Draw(spawns, random);
    var r := SyncFrom(w, order, draw, 0);
    if r.Some? then
      SyncFromValid(w, order, draw);
      SyncRecipients(w, order, draw);
      r
    else r
  }

  /** A whole pass keeps the world valid, the registered ids and the change queues. */
  lemma SyncFromValid(w: World, order: seq<Id>, draw: nat -> Option<Cell>)
    requires Valid(w)
    requires forall i :: 0 <= i < |order| ==> order[i] in w.registry
    requires SyncFrom(w, order, draw, 0).Some?
    ensures var v := SyncFrom(w, order, draw, 0).value.0;
      Valid(v) && v.registry.Keys == w.registry.Keys && v.adds == w.adds && v.removes == w.removes
  {
    SyncFromKeeps(w, order, draw, 0);
    SyncValid(w, SyncFrom(w, order, draw, 0).value.0);
  }

  /** A world whose registry entries were rewritten under the same ids and whose uuid queue
      lost entries from its front stays valid. */
  lemma SyncValid(w: World, v: World)
    requires Valid(w) && PlayersManager.Keyed(v.registry) && v.registry.Keys == w.registry.Keys
    requires v.detached == w.detached && v.adds == w.adds && v.removes == w.removes
    requires |v.uuids| <= |w.uuids| && v.uuids == w.uuids[|w.uuids| - |v.uuids|..]
    ensures Valid(v)
  {
    var d := |w.uuids| - |v.uuids|;
    assert forall k :: 0 <= k < |v.uuids| ==> v.uuids[k] == w.uuids[d + k];
  }

  /** One tick of `run()`: `sync()`, then `updatePlayerList()`. The frames go to the
      players registered when the tick began; whoever joined during the window is
      registered only for the next tick. */
  function Tick(w: World, spawns: seq<Cell>, order: seq<Id>, random: nat -> real): (r: Option<(World, seq<Frame>)>)
    requires Valid(w) && Enumerates(order, w.registry)
    requires forall i :: 0.0 <= random(i) < 1.0
    ensures |spawns| > 0 ==> r.Some?
    ensures r.Some? ==> Valid(r.value.0) && r.value.0.adds == [] && r.value.0.removes == []
    ensures r.Some? ==> |r.value.1| == |order| == |w.registry|
    ensures r.Some? ==> forall i :: 0 <= i < |order| ==> r.value.1[i].to == order[i]
    ensures r.Some? ==> forall id :: id in r.value.0.registry <==>
      (id in w.registry || id in w.adds) && id !in w.removes
  {
    match Sync(w, spawns, order, random)
    case None => None
    case Some(synced) => Some((UpdatePlayerList(synced.0), synced.1))
  }

  /** The uuid queue is stuck: its head names a player that is not registered and will not
      be registered by the next `updatePlayerList`, because it is not queued for adding or
      is also queued for removal. This is where a client that sends `init` and then leaves
      before the next tick puts the queue. */
  predicate Stuck(w: World)
  {
    |w.uuids| > 0 && w.uuids[0] !in w.registry && (w.uuids[0] in w.adds ==> w.uuids[0] in w.removes)
  }

  /** A tick on a stuck queue greets nobody and leaves the queue stuck, with the same ids
      waiting in it. */
  lemma StuckTick(w: World, spawns: seq<Cell>, order: seq<Id>, random: nat -> real)
    requires Valid(w) && Enumerates(order, w.registry)
    requires forall i :: 0.0 <= random(i) < 1.0
    requires Stuck(w)
    ensures Tick(w, spawns, order, random).Some?
    ensures var (v, frames) := Tick(w, spawns, order, random).value;
      && Stuck(v) && v.uuids == w.uuids
      && forall i :: 0 <= i < |frames| ==> frames[i].spawn.None?
  {
    var draw := Draw(spawns, random);
    BlockedHead(w, order, draw, 0);
    var synced := Sync(w, spawns, order, random).value;
    assert synced.0 == w;
    UpdateKeepsObjects(w, w.uuids[0]);
  }
}

=== FILE: decimal.dfy ===
/**
 * Decimal text for Java `int` values: `Integer.toString` and `Integer.parseInt`
 * restricted to the ASCII digits '0'..'9'.
 */
module Decimal {
  import opened Wrappers

  const IntMin: int := -0x8000_0000
  const IntMax: int := 0x7fff_ffff

  predicate IsDigit(c: char)
  {
    '0' <= c <= '9'
  }

  predicate AllDigits(s: string)
  {
    forall i :: 0 <= i < |s| ==> IsDigit(s[i])
  }

  function DigitValue(c: char): (d: nat)
    requires IsDigit(c)
    ensures d < 10
  {
    (c as int) - ('0' as int)
  }

  function DigitChar(d: nat): (c: char)
    requires d < 10
    ensures IsDigit(c) && DigitValue(c) == d
  {
    (('0' as int) + d) as char
  }

  /** The number a string of decimal digits denotes, most significant digit first. */
  function Value(s: string): nat
    requires AllDigits(s)
  {
    if |s| == 0 then 0 else Value(s[..|s| - 1]) * 10 + DigitValue(s[|s| - 1])
  }

  /** Shortest decimal digits of `n` ("0" for zero). */
  function NatString(n: nat): (s: string)
    ensures |s| > 0 && AllDigits(s)
    ensures Value(s) == n
    ensures |s| > 1 ==> s[0] != '0'
  {
    if n < 10 then [DigitChar(n)]
    else
      var s := NatString(n / 10) + [DigitChar(n % 10)];
      assert s[..|s| - 1] == NatString(n / 10);
      s
  }

  /** `Integer.toString`: a minus sign for negative values, then the digits. */
  function IntString(i: int): (s: string)
    ensures |s| > 0
    ensures i >= 0 ==> s == NatString(i)
    ensures i < 0 ==> s == "-" + NatString(-i)
  {
    if i < 0 then "-" + NatString(-i) else NatString(i)
  }

  /** `Integer.parseInt(s)`: an optional '+' or '-', then one or more digits, with the
      value inside the `int` range; anything else is a NumberFormatException (None). */
  function ParseInt(s: string): (r: Option<int>)
    ensures r.Some? ==> IntMin <= r.value <= IntMax
    ensures r.Some? <==>
      var body := if |s| > 0 && (s[0] == '+' || s[0] == '-') then s[1..] else s;
      && |body| > 0 && AllDigits(body)
      && IntMin <= (if s[0] == '-' then -(Value(body) as int) else Value(body) as int) <= IntMax
    ensures r.Some? ==>
      var body := if s[0] == '+' || s[0] == '-' then s[1..] else s;
      r.value == if s[0] == '-' then -(Value(body) as int) else Value(body) as int
  {
    if |s| == 0 then None
    else
      var signed := s[0] == '+' || s[0] == '-';
      var body := if signed then s[1..] else s;
      if |body| == 0 || !AllDigits(body) then None
      else
        var v := if s[0] == '-' then -(Value(body) as int) else Value(body) as int;
        if IntMin <= v <= IntMax then Some(v) else None
  }

  /** Parsing the text `Integer.toString` writes gives the number back. */
  lemma ParseIntString(i: int)
    requires IntMin <= i <= IntMax
    ensures ParseInt(IntString(i)) == Some(i)
  {
    var s := IntString(i);
    if i < 0 {
      assert s[1..] == NatString(-i);
    }
  }
}

=== FILE: game_map.dfy ===
/**
 * `PatherServer.generateMap` and `getRandomSpawnPoint`: the generated grid, its text form
 * (every row's cells written in decimal, each row followed by '|') and the spawn points,
 * the open cells on the ring one cell inside the border.
 */
module GameMap {
  import opened Wrappers
  import opened Text
  import opened Decimal
  import opened Maze
  import opened MapGenerator

  // ---------------------------------------------------------------------------
  // The map text

  /** One row's cells, each in decimal (`mapStr += map[i][j]`), without separators. */
  function RowText(row: seq<int>): string
  {
    if |row| == 0 then "" else IntString(row[0]) + RowText(row[1..])
  }

  function RowTexts(g: seq<seq<int>>): (texts: seq<string>)
    ensures |texts| == |g|
  {
    seq(|g|, i requires 0 <= i < |g| => RowText(g[i]))
  }

  /** `mapStr` as one call of `generateMap` extends it: every row's text followed by '|'. */
  function MapText(g: seq<seq<int>>): string
  {
    Terminated(RowTexts(g), '|')
  }

  /** Every cell is a single decimal digit. */
  predicate SingleDigits(g: seq<seq<int>>)
  {
    forall i, j :: 0 <= i < |g| && 0 <= j < |g[i]| ==> 0 <= g[i][j] <= 9
  }

  /** A row's text holds only digits and minus signs, never the row separator. */
  lemma {:induction false} RowTextChars(row: seq<int>)
    ensures forall k :: 0 <= k < |RowText(row)| ==> IsDigit(RowText(row)[k]) || RowText(row)[k] == '-'
    decreases |row|
  {
    if |row| > 0 {
      RowTextChars(row[1..]);
      var head := IntString(row[0]);
      assert forall k :: 0 <= k < |head| ==> IsDigit(head[k]) || head[k] == '-' by {
        if row[0] < 0 {
          assert head == "-" + NatString(-row[0]);
        }
      }
    }
  }

  /** A row of single digits is written one character per cell. */
  lemma {:induction false} RowTextDigits(row: seq<int>)
    requires forall j :: 0 <= j < |row| ==> 0 <= row[j] <= 9
    ensures |RowText(row)| == |row|
    ensures forall j :: 0 <= j < |row| ==> RowText(row)[j] == DigitChar(row[j])
    decreases |row|
  {
    if |row| > 0 {
      RowTextDigits(row[1..]);
      assert IntString(row[0]) == [DigitChar(row[0])];
    }
  }

  /** The row texts never hold '|', so splitting the map text at '|' gives the rows back,
      plus the empty piece after the last separator. */
  lemma MapTextRows(g: seq<seq<int>>)
    ensures Split(MapText(g), '|') == RowTexts(g) + [""]
  {
    var texts := RowTexts(g);
    forall i | 0 <= i < |texts| ensures '|' !in texts[i] {
      RowTextChars(g[i]);
    }
    SplitTerminated(texts, '|');
  }

  /** An N-row, M-column grid of single digits is written in N * (M + 1) characters. */
  lemma MapTextLength(g: seq<seq<int>>, rows: nat, cols: nat)
    requires IsGrid(g, rows, cols) && SingleDigits(g)
    ensures |MapText(g)| == rows * (cols + 1)
  {
    var texts := RowTexts(g);
    forall i | 0 <= i < |texts| ensures |texts[i]| == cols {
      RowTextDigits(g[i]);
    }
    TerminatedLength(texts, '|', cols);
  }

  // ---------------------------------------------------------------------------
  // Reading the map text back: one digit per cell, one row per '|'-terminated piece

  function ParseRow(t: string): (row: seq<int>)
    requires AllDigits(t)
    ensures |row| == |t|
  {
    seq(|t|, j requires 0 <= j < |t| => DigitValue(t[j]) as int)
  }

  /** The grid a map text denotes, or None when a piece holds a non-digit or the text does
      not end with '|'. */
  function ParseMap(s: string): (r: Option<seq<seq<int>>>)
    ensures r.Some? ==> |r.value| + 1 == |Split(s, '|')| && SingleDigits(r.value)
  {
    var parts := Split(s, '|');
    if parts[|parts| - 1] == "" && forall i :: 0 <= i < |parts| ==> AllDigits(parts[i]) then
      Some(seq(|parts| - 1, i requires 0 <= i < |parts| - 1 => ParseRow(parts[i])))
    else None
  }

  /** Reading the map text of a single-digit grid gives the grid back. */
  lemma MapTextParses(g: seq<seq<int>>)
    requires SingleDigits(g)
    ensures ParseMap(MapText(g)) == Some(g)
  {
    MapTextRows(g);
    var parts := RowTexts(g) + [""];
    forall i | 0 <= i < |g| ensures AllDigits(parts[i]) && ParseRow(parts[i]) == g[i] {
      RowTextDigits(g[i]);
    }
    assert AllDigits(parts[|g|]);
    assert seq(|g|, i requires 0 <= i < |g| => ParseRow(parts[i])) == g;
  }

  // ---------------------------------------------------------------------------
  // Spawn points

  /** The spawn test of `generateMap`: on row 1, column 1, row N-2 or column N-2 (both
      compared with the number of rows), and open. */
  predicate IsSpawn(g: seq<seq<int>>, i: int, j: int)
    requires 0 <= i < |g| && 0 <= j < |g[i]|
  {
    (i == 1 || j == 1 || i == |g| - 2 || j == |g| - 2) && g[i][j] == Floor
  }

  /** Row-major order of cells. */
  predicate Before(a: Cell, b: Cell)
  {
    a.0 < b.0 || (a.0 == b.0 && a.1 < b.1)
  }

  /** Strictly increasing in row-major order, hence free of duplicates. */
  predicate Ascending(s: seq<Cell>)
  {
    forall a, b :: 0 <= a < b < |s| ==> Before(s[a], s[b])
  }

  /** Joining two ascending lists, the first wholly before the second, is ascending. */
  lemma AscendingJoin(x: seq<Cell>, y: seq<Cell>)
    requires Ascending(x) && Ascending(y)
    requires forall a, b :: 0 <= a < |x| && 0 <= b < |y| ==> Before(x[a], y[b])
    ensures Ascending(x + y)
  {
  }

  /** The spawn points of row `i` from column `j` on, left to right. */
  function RowSpawns(g: seq<seq<int>>, cols: nat, i: nat, j: nat): (r: seq<Cell>)
    requires IsGrid(g, |g|, cols) && i < |g| && j <= cols
    ensures forall k :: 0 <= k < |r| ==> r[k].0 == i && j <= r[k].1 < cols && IsSpawn(g, i, r[k].1)
    ensures forall l :: j <= l < cols && IsSpawn(g, i, l) ==> (i, l) in r
    ensures Ascending(r)
    decreases cols - j
  {
    if j == cols then []
    else
      var head := if IsSpawn(g, i, j) then [(i, j)] else [];
      var rest := RowSpawns(g, cols, i, j + 1);
      AscendingJoin(head, rest);
      head + rest
  }

  /** The spawn points of rows `i..`, in the order the two loops visit them. */
  function SpawnsFrom(g: seq<seq<int>>, cols: nat, i: nat): (r: seq<Cell>)
    requires IsGrid(g, |g|, cols) && i <= |g|
    ensures forall k :: 0 <= k < |r| ==>
      i <= r[k].0 < |g| && 0 <= r[k].1 < cols && IsSpawn(g, r[k].0, r[k].1)
    ensures forall a, b :: i <= a < |g| && 0 <= b < cols && IsSpawn(g, a, b) ==> (a, b) in r
    ensures Ascending(r)
    decreases |g| - i
  {
    if i == |g| then []
    else
      var row := RowSpawns(g, cols, i, 0);
      var rest := SpawnsFrom(g, cols, i + 1);
      AscendingJoin(row, rest);
      row + rest
  }

  /** The width the inner loop uses: `map[0].length`. */
  function Width(g: seq<seq<int>>): nat
  {
    if |g| == 0 then 0 else |g[0]|
  }

  /** `availableSpawningPoints` as one call of `generateMap` extends it: exactly the open
      ring cells, in row-major order, each once. */
  function Spawns(g: seq<seq<int>>): (r: seq<Cell>)
    requires IsGrid(g, |g|, Width(g))
    ensures forall k :: 0 <= k < |r| ==>
      0 <= r[k].0 < |g| && 0 <= r[k].1 < Width(g) && IsSpawn(g, r[k].0, r[k].1)
    ensures forall a, b :: 0 <= a < |g| && 0 <= b < Width(g) && IsSpawn(g, a, b) ==> (a, b) in r
    ensures Ascending(r)
  {
    SpawnsFrom(g, Width(g), 0)
  }

  /** `getRandomSpawnPoint()`: the entry at index `(int)(u * size)` for the random number
      `u` in [0, 1); None stands for the exception an empty list raises. */
  function RandomSpawnPoint(spawns: seq<Cell>, u: real): (r: Option<Cell>)
    requires 0.0 <= u < 1.0
    ensures r.Some? <==> |spawns| > 0
    ensures r.Some? ==> r.value in spawns
  {
    if |spawns| == 0 then None
    else
      var k := (u * |spawns| as real).Floor;
      assert 0 <= k < |spawns| by {
        assert u * |spawns| as real < |spawns| as real;
      }
      Some(spawns[k])
  }

  /** Every spawn point can be drawn: a random number in [k / size, (k + 1) / size) picks
      entry k. */
  lemma SpawnDrawn(spawns: seq<Cell>, u: real, k: nat)
    requires 0.0 <= u < 1.0 && k < |spawns|
    requires k as real <= u * |spawns| as real < k as real + 1.0
    ensures RandomSpawnPoint(spawns, u) == Some(spawns[k])
  {
  }

  /** The random number k / size lies in [0, 1) and selects entry k. */
  lemma Quotient(k: nat, n: nat)
    requires k < n
    ensures 0.0 <= k as real / n as real < 1.0
    ensures (k as real / n as real) * n as real == k as real
  {
  }

  /** Every entry of a non-empty spawn list is drawn by some random number in [0, 1). */
  lemma EverySpawnDrawn(spawns: seq<Cell>, k: nat)
    requires k < |spawns|
    ensures exists u: real :: 0.0 <= u < 1.0 && RandomSpawnPoint(spawns, u) == Some(spawns[k])
  {
    var u := k as real / |spawns| as real;
    Quotient(k, |spawns|);
    SpawnDrawn(spawns, u, k);
  }

  // ---------------------------------------------------------------------------
  // generateMap

  /** The server fields `generateMap` writes. `mapStr` and `availableSpawningPoints` start
      empty and are appended to, not replaced. */
  datatype MapState = MapState(grid: seq<seq<int>>, mapStr: string, spawns: seq<Cell>)

  const Fresh: MapState := MapState([], "", [])

  /** The overlay of a band-and-floor maze has single-digit cells. */
  lemma OverlayDigits(maze: seq<seq<int>>, gen: Generator, rooms: seq<Room>)
    requires GenerateArgs(gen, rooms)
    requires IsGrid(maze, gen.row, gen.col) && MazeIds(maze)
    ensures SingleDigits(Overlay(maze, gen.row, gen.col, rooms))
  {
    var g := Overlay(maze, gen.row, gen.col, rooms);
    forall i, j | 0 <= i < |g| && 0 <= j < |g[i]| ensures 0 <= g[i][j] <= 9 {
      OverlayIds(maze, gen, rooms, i, j);
    }
  }

  /** A generated map has single-digit cells. */
  lemma GeneratedDigits(gen: Generator, shuffle: Shuffle, rooms: seq<Room>)
    requires GenerateArgs(gen, rooms)
    ensures SingleDigits(Generate(gen, shuffle, rooms))
  {
    CarvedMazeIds(gen.row, gen.col, shuffle);
    OverlayDigits(CarvedMaze(gen.row, gen.col, shuffle), gen, rooms);
  }

  /** The two loops of `generateMap` over a grid `g`: append every row's text and '|' to
      `mapStr`, and every open ring cell to the spawn list. */
  function AppendMap(s: MapState, g: seq<seq<int>>): MapState
    requires IsGrid(g, |g|, Width(g))
  {
    MapState(g, s.mapStr + MapText(g), s.spawns + Spawns(g))
  }

  /** Running the loops over an N x N single-digit grid with an open (1, 1). */
  lemma AppendSquare(s: MapState, g: seq<seq<int>>, n: nat)
    requires 3 <= n && IsGrid(g, n, n) && SingleDigits(g) && g[1][1] == Floor
    ensures |AppendMap(s, g).mapStr| == |s.mapStr| + n * (n + 1)
    ensures AppendMap(s, g).mapStr[..|s.mapStr|] == s.mapStr
    ensures ParseMap(AppendMap(s, g).mapStr[|s.mapStr|..]) == Some(g)
    ensures AppendMap(s, g).spawns[..|s.spawns|] == s.spawns
    ensures AppendMap(s, g).spawns[|s.spawns|..] == Spawns(g)
    ensures (1, 1) in Spawns(g)
  {
    MapTextLength(g, n, n);
    MapTextParses(g);
    var t := AppendMap(s, g);
    assert t.mapStr[|s.mapStr|..] == MapText(g);
    assert IsSpawn(g, 1, 1);
  }

  /** `generateMap(n)`: build `new MapGenerator(n, n)`, generate, then run the two loops. */
  function GenerateMap(s: MapState, n: nat, shuffle: Shuffle, rooms: seq<Room>): (t: MapState)
    requires 20 <= n <= 50 && GenerateArgs(NewGenerator(n, n), rooms)
    ensures IsGrid(t.grid, n, n) && SingleDigits(t.grid)
    ensures |t.mapStr| == |s.mapStr| + n * (n + 1)
    ensures t.mapStr[..|s.mapStr|] == s.mapStr
    ensures ParseMap(t.mapStr[|s.mapStr|..]) == Some(t.grid)
    ensures |s.spawns| <= |t.spawns| && t.spawns[..|s.spawns|] == s.spawns
    ensures t.spawns[|s.spawns|..] == Spawns(t.grid) && (1, 1) in Spawns(t.grid)
  {
    var gen := NewGenerator(n, n);
    var g := Generate(gen, shuffle, rooms);
    GeneratedDigits(gen, shuffle, rooms);
    CornerOpen(gen, shuffle, rooms);
    AppendSquare(s, g, n);
    AppendMap(s, g)
  }

  /** The grid `generateMap(n)` keeps and writes out is the one `MapGenerator.generate`
      returns for an n x n map, and the spawn list gains exactly that grid's spawn points. */
  lemma GenerateMapGrid(s: MapState, n: nat, shuffle: Shuffle, rooms: seq<Room>)
    requires 20 <= n <= 50 && GenerateArgs(NewGenerator(n, n), rooms)
    ensures GenerateMap(s, n, shuffle, rooms).grid == Generate(NewGenerator(n, n), shuffle, rooms)
    ensures GenerateMap(s, n, shuffle, rooms).spawns == s.spawns + Spawns(Generate(NewGenerator(n, n), shuffle, rooms))
  {
    var t := GenerateMap(s, n, shuffle, rooms);
    assert t.spawns == t.spawns[..|s.spawns|] + t.spawns[|s.spawns|..];
  }

  /** On the freshly constructed server, the single `generateMap` call leaves the text and
      the spawn list of exactly the generated map, and a spawn point can always be drawn. */
  lemma FirstMap(n: nat, shuffle: Shuffle, rooms: seq<Room>, u: real)
    requires 20 <= n <= 50 && GenerateArgs(NewGenerator(n, n), rooms) && 0.0 <= u < 1.0
    ensures ParseMap(GenerateMap(Fresh, n, shuffle, rooms).mapStr) == Some(Generate(NewGenerator(n, n), shuffle, rooms))
    ensures GenerateMap(Fresh, n, shuffle, rooms).spawns == Spawns(Generate(NewGenerator(n, n), shuffle, rooms))
    ensures RandomSpawnPoint(GenerateMap(Fresh, n, shuffle, rooms).spawns, u).Some?
  {
    GenerateMapGrid(Fresh, n, shuffle, rooms);
    var t := GenerateMap(Fresh, n, shuffle, rooms);
    assert t.mapStr[0..] == t.mapStr;
    assert t.spawns[0..] == t.spawns;
  }
}

=== FILE: map_generator.dfy ===
/**
 * `MapGenerator.generate`: the carved interior framed by a ring of border walls,
 * overlaid with random rooms and a 4x4 centre block.
 *
 * The generator is built as `new MapGenerator(N, N)` with N chosen in 20..50, so the
 * model requires a square map in that range; the random room positions and sizes are
 * passed in as `Room` values within the ranges the source's `Math.random` expressions
 * can produce.
 */
module MapGenerator {
  import opened Maze

  /** Cell ids: 0 open floor, 1 room, 2 centre, anything else a wall (3, 4, 5 bands, 9 border). */
  const Floor: int := 0
  const RoomFloor: int := 1
  const CentreFloor: int := 2
  const BorderWall: int := 9

  predicate IsGrid(g: seq<seq<int>>, rows: int, cols: int)
  {
    |g| == rows && forall i :: 0 <= i < |g| ==> |g[i]| == cols
  }

  predicate OnBorder(rows: int, cols: int, i: int, j: int)
  {
    i == 0 || i == rows - 1 || j == 0 || j == cols - 1
  }

  /** The grid two cells larger in each direction: border walls on the outer ring,
      the maze cell (i-1, j-1) at every inner cell (i, j). */
  function Embed(maze: seq<seq<int>>, rows: nat, cols: nat): (g: seq<seq<int>>)
    requires IsGrid(maze, rows, cols)
    ensures IsGrid(g, rows + 2, cols + 2)
    ensures forall i, j :: 0 <= i < rows + 2 && 0 <= j < cols + 2 && OnBorder(rows + 2, cols + 2, i, j) ==>
      g[i][j] == BorderWall
    ensures forall i, j :: 0 <= i < rows && 0 <= j < cols ==> g[i + 1][j + 1] == maze[i][j]
  {
    seq(rows + 2, i requires 0 <= i < rows + 2 =>
      seq(cols + 2, j requires 0 <= j < cols + 2 =>
        if OnBorder(rows + 2, cols + 2, i, j) then BorderWall else maze[i - 1][j - 1]))
  }

  /** The inner part of a framed grid. */
  function Interior(g: seq<seq<int>>, rows: nat, cols: nat): seq<seq<int>>
    requires IsGrid(g, rows + 2, cols + 2)
  {
    seq(rows, i requires 0 <= i < rows => seq(cols, j requires 0 <= j < cols => g[i + 1][j + 1]))
  }

  /** Framing loses nothing: the inside of the framed grid is the maze. */
  lemma InteriorOfEmbed(maze: seq<seq<int>>, rows: nat, cols: nat)
    requires IsGrid(maze, rows, cols)
    ensures Interior(Embed(maze, rows, cols), rows, cols) == maze
  {
    var inner := Interior(Embed(maze, rows, cols), rows, cols);
    assert forall i :: 0 <= i < rows ==> inner[i] == maze[i];
  }

  /** Sets the cells of rows [top, bottom) and columns [left, right) to `v`; an empty range
      paints nothing, as the source's `for` loops do. */
  function Paint(g: seq<seq<int>>, rows: nat, cols: nat, top: int, bottom: int, left: int, right: int, v: int)
    : (h: seq<seq<int>>)
    requires IsGrid(g, rows, cols)
    requires top >= bottom || (0 <= top && bottom <= rows)
    requires left >= right || (0 <= left && right <= cols)
    ensures IsGrid(h, rows, cols)
    ensures forall i, j :: 0 <= i < rows && 0 <= j < cols ==>
      h[i][j] == if top <= i < bottom && left <= j < right then v else g[i][j]
  {
    seq(rows, i requires 0 <= i < rows =>
      seq(cols, j requires 0 <= j < cols => if top <= i < bottom && left <= j < right then v else g[i][j]))
  }

  // ---------------------------------------------------------------------------
  // Rooms
  // ---------------------------------------------------------------------------

  /** One room: top-left corner (x, y) of the framed map and side length. */
  datatype Room = Room(x: int, y: int, size: int)

  /** The values `(int) (Math.random() * (row - 6)) + 2`, `(int) (Math.random() * (col - 5)) + 2`
      and `(int) (Math.random() * 4) + 2` can take, for an interior of row x col cells. */
  predicate RoomDrawn(row: int, col: int, room: Room)
  {
    && 2 <= room.x <= row - 5
    && 2 <= room.y <= col - 4
    && 2 <= room.size <= 5
  }

  predicate InRoom(room: Room, i: int, j: int)
  {
    room.x <= i < room.x + room.size && room.y <= j < room.y + room.size
  }

  predicate InSomeRoom(rooms: seq<Room>, i: int, j: int)
  {
    exists k :: 0 <= k < |rooms| && InRoom(rooms[k], i, j)
  }

  predicate RoomsFit(rooms: seq<Room>, rows: int, cols: int)
  {
    forall k :: 0 <= k < |rooms| ==>
      0 <= rooms[k].x && rooms[k].x + rooms[k].size <= rows &&
      0 <= rooms[k].y && rooms[k].y + rooms[k].size <= cols && rooms[k].size >= 0
  }

  /** Paints the rooms one after the other with the room id. */
  function PlaceRooms(g: seq<seq<int>>, rows: nat, cols: nat, rooms: seq<Room>): (h: seq<seq<int>>)
    requires IsGrid(g, rows, cols) && RoomsFit(rooms, rows, cols)
    ensures IsGrid(h, rows, cols)
    ensures forall i, j :: 0 <= i < rows && 0 <= j < cols ==>
      h[i][j] == if InSomeRoom(rooms, i, j) then RoomFloor else g[i][j]
    decreases |rooms|
  {
    if |rooms| == 0 then g
    else
      var room := rooms[0];
      var painted := Paint(g, rows, cols, room.x, room.x + room.size, room.y, room.y + room.size, RoomFloor);
      var h := PlaceRooms(painted, rows, cols, rooms[1..]);
      assert forall i, j :: InSomeRoom(rooms, i, j) <==> InRoom(room, i, j) || InSomeRoom(rooms[1..], i, j) by {
        forall i, j ensures InSomeRoom(rooms, i, j) ==> InRoom(room, i, j) || InSomeRoom(rooms[1..], i, j) {
          if InSomeRoom(rooms, i, j) {
            var k :| 0 <= k < |rooms| && InRoom(rooms[k], i, j);
            if k > 0 {
              assert InRoom(rooms[1..][k - 1], i, j);
            }
          }
        }
        forall i, j ensures InSomeRoom(rooms[1..], i, j) ==> InSomeRoom(rooms, i, j) {
          if InSomeRoom(rooms[1..], i, j) {
            var k :| 0 <= k < |rooms[1..]| && InRoom(rooms[1..][k], i, j);
            assert InRoom(rooms[k + 1], i, j);
          }
        }
      }
      h
  }

  // ---------------------------------------------------------------------------
  // Centre
  // ---------------------------------------------------------------------------

  /** The 4x4 centre block, painted as the source writes it: the start row and column are
      computed per parity of the framed size, and the column loop is bounded by the start
      ROW plus 4 (`row` where `col` is meant), which is the same value on a square map. */
  function PlaceCentre(g: seq<seq<int>>, row: nat, col: nat): (h: seq<seq<int>>)
    requires IsGrid(g, row + 2, col + 2) && row == col && row >= 6
    ensures IsGrid(h, row + 2, col + 2)
  {
    if (row + 2) % 2 == 0 then
      Paint(g, row + 2, col + 2, (row + 2 - 1) / 2 - 1, (row + 2 - 1) / 2 - 1 + 4,
            (col + 2 - 1) / 2 - 1, (row + 2 - 1) / 2 - 1 + 4, CentreFloor)
    else
      Paint(g, row + 2, col + 2, (row + 2) / 2 - 1, (row + 2) / 2 - 1 + 4,
            (col + 2) / 2 - 1, (row + 2) / 2 - 1 + 4, CentreFloor)
  }

  /** First row and column of the centre block of an n x n map; both parity branches of
      the source agree on it. */
  function CentreStart(n: int): int
  {
    (n - 1) / 2 - 1
  }

  predicate InCentre(n: int, i: int, j: int)
  {
    CentreStart(n) <= i < CentreStart(n) + 4 && CentreStart(n) <= j < CentreStart(n) + 4
  }

  /** Whatever the parity, the centre overlay paints exactly the block at `CentreStart`. */
  lemma CentreBlock(g: seq<seq<int>>, row: nat, col: nat)
    requires IsGrid(g, row + 2, col + 2) && row == col && row >= 6
    ensures forall i, j :: 0 <= i < row + 2 && 0 <= j < col + 2 ==>
      PlaceCentre(g, row, col)[i][j] == if InCentre(row + 2, i, j) then CentreFloor else g[i][j]
  {
  }

  // ---------------------------------------------------------------------------
  // generate()
  // ---------------------------------------------------------------------------

  /** A `MapGenerator` object: the interior size the constructor stores (two less than the
      requested map size in each direction). */
  datatype Generator = Generator(row: nat, col: nat)

  /** `new MapGenerator(r, c)`. */
  function NewGenerator(r: nat, c: nat): (gen: Generator)
    requires r >= 2 && c >= 2
    ensures gen.row + 2 == r && gen.col + 2 == c
  {
    Generator(r - 2, c - 2)
  }

  /** What the callers guarantee about a generator: it is built as `new MapGenerator(N, N)`
      with N in 20..50, and `row / 4` rooms are drawn within the random ranges. */
  predicate GenerateArgs(gen: Generator, rooms: seq<Room>)
  {
    && gen.row == gen.col && 18 <= gen.row <= 48
    && |rooms| == gen.row / 4
    && forall k :: 0 <= k < |rooms| ==> RoomDrawn(gen.row, gen.col, rooms[k])
  }

  /** `generate()`: fill the bands, carve from (0, 0), frame, paint the rooms and the centre. */
  function Generate(gen: Generator, shuffle: Shuffle, rooms: seq<Room>): (g: seq<seq<int>>)
    requires GenerateArgs(gen, rooms)
    ensures IsGrid(g, gen.row + 2, gen.col + 2)
  {
    Overlay(CarvedMaze(gen.row, gen.col, shuffle), gen.row, gen.col, rooms)
  }

  /** The steps of `generate()` after the carving: frame the maze, paint the rooms, paint
      the centre. */
  function Overlay(maze: seq<seq<int>>, row: nat, col: nat, rooms: seq<Room>): (g: seq<seq<int>>)
    requires IsGrid(maze, row, col) && row == col && row >= 6
    requires RoomsFit(rooms, row + 2, col + 2)
    ensures IsGrid(g, row + 2, col + 2)
  {
    var framed := Embed(maze, row, col);
    var withRooms := PlaceRooms(framed, row + 2, col + 2, rooms);
    PlaceCentre(withRooms, row, col)
  }

  /** An overlaid cell, layer by layer: the centre block on top, then the rooms, then the
      border ring, then the maze cell shifted by one. */
  lemma OverlayCell(maze: seq<seq<int>>, row: nat, col: nat, rooms: seq<Room>, i: int, j: int)
    requires IsGrid(maze, row, col) && row == col && row >= 6
    requires RoomsFit(rooms, row + 2, col + 2)
    requires 0 <= i < row + 2 && 0 <= j < col + 2
    ensures Overlay(maze, row, col, rooms)[i][j] ==
      if InCentre(row + 2, i, j) then CentreFloor
      else if InSomeRoom(rooms, i, j) then RoomFloor
      else if OnBorder(row + 2, col + 2, i, j) then BorderWall
      else maze[i - 1][j - 1]
  {
    var framed := Embed(maze, row, col);
    var withRooms := PlaceRooms(framed, row + 2, col + 2, rooms);
    CentreBlock(withRooms, row, col);
    if !OnBorder(row + 2, col + 2, i, j) {
      assert framed[(i - 1) + 1][(j - 1) + 1] == maze[i - 1][j - 1];
    }
  }

  /** Every room drawn within the source's random ranges lies in rows 2..N-3 and columns
      2..N-2 of the framed N x N map (N = row + 2). */
  lemma RoomBounds(gen: Generator, rooms: seq<Room>, i: int, j: int)
    requires GenerateArgs(gen, rooms)
    requires InSomeRoom(rooms, i, j)
    ensures 2 <= i <= gen.row - 1 && 2 <= j <= gen.col
  {
    var k :| 0 <= k < |rooms| && InRoom(rooms[k], i, j);
    assert RoomDrawn(gen.row, gen.col, rooms[k]);
  }

  /** On any maze without room ids, a room cell of the overlay lies in a drawn room. */
  lemma OverlayRoomInside(maze: seq<seq<int>>, gen: Generator, rooms: seq<Room>, i: int, j: int)
    requires GenerateArgs(gen, rooms)
    requires IsGrid(maze, gen.row, gen.col) && MazeIds(maze)
    requires 0 <= i < gen.row + 2 && 0 <= j < gen.col + 2
    requires Overlay(maze, gen.row, gen.col, rooms)[i][j] == RoomFloor
    ensures InSomeRoom(rooms, i, j)
  {
    OverlayCell(maze, gen.row, gen.col, rooms, i, j);
  }

  /** On any maze without room ids, the overlay is walled by the border ring and holds only
      the ids 0, 1, 2, 3, 4, 5 and 9. */
  lemma OverlayIds(maze: seq<seq<int>>, gen: Generator, rooms: seq<Room>, i: int, j: int)
    requires GenerateArgs(gen, rooms)
    requires IsGrid(maze, gen.row, gen.col) && MazeIds(maze)
    requires 0 <= i < gen.row + 2 && 0 <= j < gen.col + 2
    ensures OnBorder(gen.row + 2, gen.col + 2, i, j) ==> Overlay(maze, gen.row, gen.col, rooms)[i][j] == BorderWall
    ensures Overlay(maze, gen.row, gen.col, rooms)[i][j] in {Floor, RoomFloor, CentreFloor, 3, 4, 5, BorderWall}
  {
    OverlayCell(maze, gen.row, gen.col, rooms, i, j);
    if OnBorder(gen.row + 2, gen.col + 2, i, j) {
      assert !InCentre(gen.row + 2, i, j);
      if InSomeRoom(rooms, i, j) {
        RoomBounds(gen, rooms, i, j);
      }
    } else if !InCentre(gen.row + 2, i, j) && !InSomeRoom(rooms, i, j) {
      assert maze[i - 1][j - 1] in {Floor, 3, 4, 5};
    }
  }

  /** When the maze corner is open, so is cell (1, 1) of the overlay: no room starts above
      row 2 or left of column 2, and the centre block is far from the corner. */
  lemma OverlayCorner(maze: seq<seq<int>>, gen: Generator, rooms: seq<Room>)
    requires GenerateArgs(gen, rooms)
    requires IsGrid(maze, gen.row, gen.col) && maze[0][0] == Floor
    ensures Overlay(maze, gen.row, gen.col, rooms)[1][1] == Floor
  {
    OverlayCell(maze, gen.row, gen.col, rooms, 1, 1);
    if InSomeRoom(rooms, 1, 1) {
      RoomBounds(gen, rooms, 1, 1);
    }
  }

  /** A room cell of a generated map lies in one of the drawn rooms, in rows 2..N-3 and
      columns 2..N-2: rooms never reach the border. */
  lemma RoomCellsInside(gen: Generator, shuffle: Shuffle, rooms: seq<Room>, i: int, j: int)
    requires GenerateArgs(gen, rooms)
    requires 0 <= i < gen.row + 2 && 0 <= j < gen.col + 2
    requires Generate(gen, shuffle, rooms)[i][j] == RoomFloor
    ensures InSomeRoom(rooms, i, j)
    ensures 2 <= i <= gen.row - 1 && 2 <= j <= gen.col
  {
    CarvedMazeIds(gen.row, gen.col, shuffle);
    OverlayRoomInside(CarvedMaze(gen.row, gen.col, shuffle), gen, rooms, i, j);
    RoomBounds(gen, rooms, i, j);
  }

  /** A generated map is framed by border walls and holds only the ids 0 (floor), 1 (room),
      2 (centre), 3, 4, 5 (band walls) and 9 (border). */
  lemma GenerateIds(gen: Generator, shuffle: Shuffle, rooms: seq<Room>, i: int, j: int)
    requires GenerateArgs(gen, rooms)
    requires 0 <= i < gen.row + 2 && 0 <= j < gen.col + 2
    ensures OnBorder(gen.row + 2, gen.col + 2, i, j) ==> Generate(gen, shuffle, rooms)[i][j] == BorderWall
    ensures Generate(gen, shuffle, rooms)[i][j] in {Floor, RoomFloor, CentreFloor, 3, 4, 5, BorderWall}
  {
    CarvedMazeIds(gen.row, gen.col, shuffle);
    OverlayIds(CarvedMaze(gen.row, gen.col, shuffle), gen, rooms, i, j);
  }

  /** Cell (1, 1), the carved origin, is open in every generated map. */
  lemma CornerOpen(gen: Generator, shuffle: Shuffle, rooms: seq<Room>)
    requires GenerateArgs(gen, rooms)
    ensures Generate(gen, shuffle, rooms)[1][1] == Floor
  {
    MazeCornerOpen(gen.row, gen.col, shuffle);
    OverlayCorner(CarvedMaze(gen.row, gen.col, shuffle), gen, rooms);
  }
}

=== FILE: maze.dfy ===
/**
 * The interior of the map before it is framed: the three wall bands and the
 * recursive-backtracking carving of `MapGenerator.dfs`.
 *
 * The carving state is the set `open` of cells that dfs has set to 0. The band fill
 * writes only 3, 4 and 5, so the source's test `maze[newR][newC] != 0` is exactly
 * `(newR, newC) !in open`, and the carved maze is the band grid with `open` cells zeroed.
 * `Collections.shuffle` becomes a `Shuffle`: the direction order used by the n-th
 * call of dfs, for every n, so every property below holds for every shuffle.
 */
module Maze {

  type Cell = (int, int)

  datatype Dir = Up | Down | Left | Right

  /** Row and column offset of one carving step: two cells in direction `d`. */
  function Vector(d: Dir): (int, int)
  {
    match d
    case Up => (-2, 0)
    case Down => (2, 0)
    case Left => (0, -2)
    case Right => (0, 2)
  }

  /** The cell two steps away in direction `d`. */
  function Step(x: Cell, d: Dir): Cell
  {
    (x.0 + Vector(d).0, x.1 + Vector(d).1)
  }

  /** The wall cell between `x` and `Step(x, d)`. */
  function Between(x: Cell, d: Dir): Cell
  {
    (x.0 + Vector(d).0 / 2, x.1 + Vector(d).1 / 2)
  }

  /** A shuffled direction list: the four directions, each once. */
  predicate IsOrder(o: seq<Dir>)
  {
    |o| == 4 && Up in o && Down in o && Left in o && Right in o
  }

  type Order = o: seq<Dir> | IsOrder(o) witness [Up, Down, Left, Right]

  /** The order `Collections.shuffle` produced at the n-th call of dfs. */
  type Shuffle = nat -> Order

  predicate Inside(rows: int, cols: int, x: Cell)
  {
    0 <= x.0 < rows && 0 <= x.1 < cols
  }

  function Cells(rows: nat, cols: nat): set<Cell>
  {
    set i, j | 0 <= i < rows && 0 <= j < cols :: (i, j)
  }

  /** Every cell of `s` is inside the grid. */
  predicate Within(rows: int, cols: int, s: set<Cell>)
  {
    forall x :: x in s ==> Inside(rows, cols, x)
  }

  predicate Even(x: Cell)
  {
    x.0 % 2 == 0 && x.1 % 2 == 0
  }

  /** The cell two steps from `x` in direction `d` is carved, or outside. */
  predicate Reached(rows: int, cols: int, open: set<Cell>, x: Cell, d: Dir)
  {
    Inside(rows, cols, Step(x, d)) ==> Step(x, d) in open
  }

  /** Every inside cell two steps from `x` is carved: what a finished `dfs(x)` leaves behind. */
  predicate Saturated(rows: int, cols: int, open: set<Cell>, x: Cell)
  {
    Reached(rows, cols, open, x, Up) && Reached(rows, cols, open, x, Down) &&
    Reached(rows, cols, open, x, Left) && Reached(rows, cols, open, x, Right)
  }

  /** The directions `order[k..]` of a four-direction order are all reached from `x`. */
  predicate Covered(rows: int, cols: int, open: set<Cell>, x: Cell, order: seq<Dir>, k: int)
    requires |order| == 4
  {
    && (k <= 0 ==> Reached(rows, cols, open, x, order[0]))
    && (k <= 1 ==> Reached(rows, cols, open, x, order[1]))
    && (k <= 2 ==> Reached(rows, cols, open, x, order[2]))
    && (k <= 3 ==> Reached(rows, cols, open, x, order[3]))
  }

  /** A shuffled order holds every direction, so covering all of it saturates. */
  lemma OrderCovers(rows: int, cols: int, open: set<Cell>, x: Cell, order: Order)
    requires Covered(rows, cols, open, x, order, 0)
    ensures Saturated(rows, cols, open, x)
  {
    assert IsOrder(order);
  }

  // ---------------------------------------------------------------------------
  // Band fill
  // ---------------------------------------------------------------------------

  /** Wall id of the cell at row-major index `k` of an interior of `area` cells:
      the first third 3, the second third 4, the rest 5 (integer division). */
  function BandId(area: int, k: int): int
  {
    if k < area / 3 then 3 else if k < area / 3 * 2 then 4 else 5
  }

  /** A grid holding only open floor (0) and the three band wall ids. */
  predicate MazeIds(g: seq<seq<int>>)
  {
    forall i, j :: 0 <= i < |g| && 0 <= j < |g[i]| ==> g[i][j] in {0, 3, 4, 5}
  }

  /** The band fill exactly as written: a nested row/column loop with a running counter. */
  method FillBands(rows: nat, cols: nat) returns (maze: seq<seq<int>>)
    ensures |maze| == rows && forall i :: 0 <= i < rows ==> |maze[i]| == cols
    ensures forall i, j :: 0 <= i < rows && 0 <= j < cols ==>
      maze[i][j] == (if i * cols + j < rows * cols / 3 then 3
                     else if i * cols + j < rows * cols / 3 * 2 then 4 else 5)
  {
    var mapSize := rows * cols;
    var cnt := 0;
    maze := [];
    var i := 0;
    while i < rows
      invariant 0 <= i <= rows
      invariant cnt == i * cols
      invariant |maze| == i
      invariant forall a :: 0 <= a < i ==> |maze[a]| == cols
      invariant forall a, b :: 0 <= a < i && 0 <= b < cols ==> maze[a][b] == BandId(mapSize, a * cols + b)
    {
      var line := [];
      var j := 0;
      while j < cols
        invariant 0 <= j <= cols
        invariant cnt == i * cols + j
        invariant |line| == j
        invariant forall b :: 0 <= b < j ==> line[b] == BandId(mapSize, i * cols + b)
      {
        var id;
        if cnt < mapSize / 3 {
          id := 3;
        } else if cnt < mapSize / 3 * 2 {
          id := 4;
        } else {
          id := 5;
        }
        line := line + [id];
        cnt := cnt + 1;
        j := j + 1;
      }
      maze := maze + [line];
      i := i + 1;
    }
  }

  /** Band ids are wall ids and never decrease along row-major order. */
  lemma BandOrder(area: int, k: int, l: int)
    requires k <= l
    ensures BandId(area, k) in {3, 4, 5}
    ensures BandId(area, k) <= BandId(area, l)
  {
  }

  // ---------------------------------------------------------------------------
  // Carving
  // ---------------------------------------------------------------------------

  datatype Carving = Carving(open: set<Cell>, calls: nat)

  /** Cells not carved yet: the termination measure of dfs. */
  function Remaining(rows: nat, cols: nat, open: set<Cell>): nat
  {
    |Cells(rows, cols) - open|
  }

  /** `dfs(r, c)`: shuffle the directions (the call counter picks this call's order), then
      visit them in that order. */
  function Dfs(rows: nat, cols: nat, shuffle: Shuffle, st: Carving, r: int, c: int): (res: Carving)
    requires Inside(rows, cols, (r, c)) && Within(rows, cols, st.open) && Even((r, c))
    ensures st.open <= res.open && Within(rows, cols, res.open)
    ensures Saturated(rows, cols, res.open, (r, c))
    decreases Remaining(rows, cols, st.open), 2
  {
    var order := shuffle(st.calls);
    var res := Explore(rows, cols, shuffle, Carving(st.open, st.calls + 1), r, c, order, 0);
    OrderCovers(rows, cols, res.open, (r, c), order);
    res
  }

  /** The loop of `dfs(r, c)` over the directions `order[k..]`. */
  function Explore(rows: nat, cols: nat, shuffle: Shuffle, st: Carving, r: int, c: int, order: Order, k: nat)
    : (res: Carving)
    requires Inside(rows, cols, (r, c)) && Within(rows, cols, st.open) && Even((r, c)) && k <= 4
    ensures st.open <= res.open && Within(rows, cols, res.open)
    ensures Covered(rows, cols, res.open, (r, c), order, k)
    decreases Remaining(rows, cols, st.open), 1, 4 - k
  {
    if k == 4 then st
    else
      var mid := Visit(rows, cols, shuffle, st, r, c, order[k]);
      RemainingMono(rows, cols, st.open, mid.open);
      Explore(rows, cols, shuffle, mid, r, c, order, k + 1)
  }

  /** One pass of the loop body of `dfs(r, c)`: when the cell two steps in direction `d` is
      inside and still a wall, carve it and the wall between, then recurse from it. */
  function Visit(rows: nat, cols: nat, shuffle: Shuffle, st: Carving, r: int, c: int, d: Dir): (res: Carving)
    requires Inside(rows, cols, (r, c)) && Within(rows, cols, st.open) && Even((r, c))
    ensures st.open <= res.open && Within(rows, cols, res.open)
    ensures Reached(rows, cols, res.open, (r, c), d)
    decreases Remaining(rows, cols, st.open), 0
  {
    var next := Step((r, c), d);
    if Inside(rows, cols, next) && next !in st.open then
      StepInside(rows, cols, (r, c), d);
      var carved := st.open + {next, Between((r, c), d)};
      CarvingShrinks(rows, cols, st.open, carved, next);
      Dfs(rows, cols, shuffle, Carving(carved, st.calls), next.0, next.1)
    else
      st
  }

  /** A step from an even inside cell to an inside cell passes an inside wall and lands
      on an even cell. */
  lemma StepInside(rows: int, cols: int, x: Cell, d: Dir)
    requires Inside(rows, cols, x) && Inside(rows, cols, Step(x, d)) && Even(x)
    ensures Inside(rows, cols, Between(x, d)) && Even(Step(x, d))
  {
  }

  lemma CarvingShrinks(rows: nat, cols: nat, before: set<Cell>, after: set<Cell>, x: Cell)
    requires before <= after && x in after && x !in before && Inside(rows, cols, x)
    ensures Remaining(rows, cols, after) < Remaining(rows, cols, before)
  {
    var all := Cells(rows, cols);
    assert x in all by {
      assert x == (x.0, x.1);
    }
    var smaller := (all - before) - {x};
    assert all - after <= smaller;
    assert |smaller| == |all - before| - 1;
    SubsetSize(all - after, smaller);
  }

  lemma RemainingMono(rows: nat, cols: nat, before: set<Cell>, after: set<Cell>)
    requires before <= after
    ensures Remaining(rows, cols, after) <= Remaining(rows, cols, before)
  {
    SubsetSize(Cells(rows, cols) - after, Cells(rows, cols) - before);
  }

  lemma SubsetSize<T>(a: set<T>, b: set<T>)
    requires a <= b
    ensures |a| <= |b|
  {
    assert b == a + (b - a);
  }

  /** The carving the generator runs: `dfs(0, 0)` on an uncarved interior. */
  function Carve(rows: nat, cols: nat, shuffle: Shuffle): (open: set<Cell>)
    requires rows > 0 && cols > 0
    ensures Within(rows, cols, open)
    ensures cols > 2 ==> (0, 2) in open
    ensures rows > 2 ==> (2, 0) in open
  {
    var res := Dfs(rows, cols, shuffle, Carving({}, 0), 0, 0);
    assert Step((0, 0), Right) == (0, 2) && Step((0, 0), Down) == (2, 0);
    res.open
  }

  /** The band grid with the cells of `open` set to 0. */
  function Zeroed(rows: nat, cols: nat, open: set<Cell>): (g: seq<seq<int>>)
    ensures |g| == rows && forall i :: 0 <= i < rows ==> |g[i]| == cols
    ensures forall i, j :: 0 <= i < rows && 0 <= j < cols ==>
      g[i][j] == if (i, j) in open then 0 else BandId(rows * cols, i * cols + j)
  {
    seq(rows, i => seq(cols, j => if (i, j) in open then 0 else BandId(rows * cols, i * cols + j)))
  }

  /** Zeroing cells of the band grid leaves only floor and band wall ids. */
  lemma ZeroedIds(rows: nat, cols: nat, open: set<Cell>)
    ensures MazeIds(Zeroed(rows, cols, open))
  {
    var g := Zeroed(rows, cols, open);
    forall i, j | 0 <= i < rows && 0 <= j < cols
      ensures g[i][j] in {0, 3, 4, 5}
    {
      BandOrder(rows * cols, i * cols + j, i * cols + j);
    }
  }

  /** The carved interior: 0 where dfs carved, the band wall id elsewhere. */
  function CarvedMaze(rows: nat, cols: nat, shuffle: Shuffle): (g: seq<seq<int>>)
    requires rows > 0 && cols > 0
    ensures |g| == rows && forall i :: 0 <= i < rows ==> |g[i]| == cols
  {
    Zeroed(rows, cols, Carve(rows, cols, shuffle))
  }

  // ---------------------------------------------------------------------------
  // Connectivity of the carving
  // ---------------------------------------------------------------------------

  /** 4-neighbours: one cell apart in one axis. */
  predicate Adjacent(a: Cell, b: Cell)
  {
    || (a.0 == b.0 && (a.1 == b.1 + 1 || b.1 == a.1 + 1))
    || (a.1 == b.1 && (a.0 == b.0 + 1 || b.0 == a.0 + 1))
  }

  /** `p` walks through cells of `s` in 4-neighbour steps. */
  ghost predicate IsPath(p: seq<Cell>, s: set<Cell>)
  {
    && |p| > 0
    && (forall i :: 0 <= i < |p| ==> p[i] in s)
    && (forall i :: 0 <= i < |p| - 1 ==> Adjacent(p[i], p[i + 1]))
  }

  /** `b` can be reached from `a` through cells of `s` (both included). */
  ghost predicate Linked(s: set<Cell>, a: Cell, b: Cell)
  {
    exists p :: IsPath(p, s) && p[0] == a && p[|p| - 1] == b
  }

  lemma LinkedMono(s: set<Cell>, t: set<Cell>, a: Cell, b: Cell)
    requires s <= t && Linked(s, a, b)
    ensures Linked(t, a, b)
  {
    var p :| IsPath(p, s) && p[0] == a && p[|p| - 1] == b;
    assert IsPath(p, t);
  }

  lemma LinkedTrans(s: set<Cell>, a: Cell, b: Cell, c: Cell)
    requires Linked(s, a, b) && Linked(s, b, c)
    ensures Linked(s, a, c)
  {
    var p :| IsPath(p, s) && p[0] == a && p[|p| - 1] == b;
    var q :| IsPath(q, s) && q[0] == b && q[|q| - 1] == c;
    var pq := p + q[1..];
    forall i | 0 <= i < |pq| - 1
      ensures Adjacent(pq[i], pq[i + 1])
    {
      if i < |p| - 1 {
        assert pq[i] == p[i] && pq[i + 1] == p[i + 1];
      } else {
        assert pq[i] == q[i - |p| + 1] && pq[i + 1] == q[i - |p| + 2];
      }
    }
    assert IsPath(pq, s);
  }

  /** What one call of dfs rooted at `root` adds to the carving: no cell with both
      coordinates odd, every carved even cell has its own neighbours carved, and every
      carved cell is linked to the root through carved cells. */
  ghost predicate Grows(rows: int, cols: int, before: set<Cell>, after: set<Cell>, root: Cell)
  {
    && before <= after
    && (forall x :: x in after && x !in before ==> x.0 % 2 == 0 || x.1 % 2 == 0)
    && (forall x :: x in after && x !in before && Even(x) ==> Saturated(rows, cols, after, x))
    && (forall x :: x in after && x !in before ==> Linked(after + {root}, root, x))
  }

  lemma GrowsTrans(rows: int, cols: int, a: set<Cell>, b: set<Cell>, c: set<Cell>, root: Cell)
    requires Grows(rows, cols, a, b, root) && Grows(rows, cols, b, c, root)
    ensures Grows(rows, cols, a, c, root)
  {
    forall x | x in c && x !in a
      ensures Linked(c + {root}, root, x)
      ensures Even(x) ==> Saturated(rows, cols, c, x)
    {
      if x in b {
        LinkedMono(b + {root}, c + {root}, root, x);
      }
    }
  }

  /** The wall between an even cell and its step target has one odd coordinate and
      touches both cells. */
  lemma BetweenFacts(rc: Cell, d: Dir)
    requires Even(rc)
    ensures Even(Step(rc, d)) && !Even(Between(rc, d))
    ensures Between(rc, d).0 % 2 == 0 || Between(rc, d).1 % 2 == 0
    ensures Adjacent(rc, Between(rc, d)) && Adjacent(Between(rc, d), Step(rc, d))
  {
  }

  /** Every cell carved by the step is linked to `rc`: the two new cells directly, the rest
      through `next`. */
  lemma CarveStepLinked(before: set<Cell>, after: set<Cell>, rc: Cell, d: Dir)
    requires Even(rc)
    requires Step(rc, d) in after && Between(rc, d) in after
    requires forall x :: x in after && x !in before + {Step(rc, d), Between(rc, d)} ==>
      Linked(after + {Step(rc, d)}, Step(rc, d), x)
    ensures forall x :: x in after && x !in before ==> Linked(after + {rc}, rc, x)
  {
    var next, mid := Step(rc, d), Between(rc, d);
    BetweenFacts(rc, d);
    var s := after + {rc};
    assert IsPath([rc, mid, next], s);
    assert IsPath([rc, mid], s);
    assert Linked(s, rc, next);
    assert Linked(s, rc, mid);
    assert after + {next} == after;
    forall x | x in after && x !in before
      ensures Linked(s, rc, x)
    {
      if x != next && x != mid {
        LinkedMono(after, s, next, x);
        LinkedTrans(s, rc, next, x);
      }
    }
  }

  /** Carving `next` and the wall between, then running `dfs(next)`, grows the carving
      rooted at `rc`. */
  lemma CarveStep(rows: int, cols: int, before: set<Cell>, after: set<Cell>, rc: Cell, d: Dir)
    requires Even(rc)
    requires Grows(rows, cols, before + {Step(rc, d), Between(rc, d)}, after, Step(rc, d))
    requires Saturated(rows, cols, after, Step(rc, d))
    ensures Grows(rows, cols, before, after, rc)
  {
    BetweenFacts(rc, d);
    CarveStepLinked(before, after, rc, d);
  }

  lemma {:induction false} DfsGrows(rows: nat, cols: nat, shuffle: Shuffle, st: Carving, r: int, c: int)
    requires Inside(rows, cols, (r, c)) && Within(rows, cols, st.open) && Even((r, c))
    ensures Grows(rows, cols, st.open, Dfs(rows, cols, shuffle, st, r, c).open, (r, c))
    decreases Remaining(rows, cols, st.open), 2
  {
    ExploreGrows(rows, cols, shuffle, Carving(st.open, st.calls + 1), r, c, shuffle(st.calls), 0);
  }

  lemma {:induction false} ExploreGrows(rows: nat, cols: nat, shuffle: Shuffle, st: Carving, r: int, c: int,
                                        order: Order, k: nat)
    requires Inside(rows, cols, (r, c)) && Within(rows, cols, st.open) && Even((r, c)) && k <= 4
    ensures Grows(rows, cols, st.open, Explore(rows, cols, shuffle, st, r, c, order, k).open, (r, c))
    decreases Remaining(rows, cols, st.open), 1, 4 - k
  {
    if k < 4 {
      var mid := Visit(rows, cols, shuffle, st, r, c, order[k]);
      VisitGrows(rows, cols, shuffle, st, r, c, order[k]);
      RemainingMono(rows, cols, st.open, mid.open);
      ExploreGrows(rows, cols, shuffle, mid, r, c, order, k + 1);
      GrowsTrans(rows, cols, st.open, mid.open, Explore(rows, cols, shuffle, mid, r, c, order, k + 1).open, (r, c));
    }
  }

  lemma {:induction false} VisitGrows(rows: nat, cols: nat, shuffle: Shuffle, st: Carving, r: int, c: int, d: Dir)
    requires Inside(rows, cols, (r, c)) && Within(rows, cols, st.open) && Even((r, c))
    ensures Grows(rows, cols, st.open, Visit(rows, cols, shuffle, st, r, c, d).open, (r, c))
    decreases Remaining(rows, cols, st.open), 0
  {
    var next := Step((r, c), d);
    if Inside(rows, cols, next) && next !in st.open {
      StepInside(rows, cols, (r, c), d);
      var carved := st.open + {next, Between((r, c), d)};
      CarvingShrinks(rows, cols, st.open, carved, next);
      DfsGrows(rows, cols, shuffle, Carving(carved, st.calls), next.0, next.1);
      CarveStep(rows, cols, st.open, Dfs(rows, cols, shuffle, Carving(carved, st.calls), next.0, next.1).open, (r, c), d);
    }
  }

  /** `dfs(0, 0)` on an uncarved interior grows the carving from the origin. */
  lemma CarveGrows(rows: nat, cols: nat, shuffle: Shuffle)
    requires rows > 0 && cols > 0
    ensures Grows(rows, cols, {}, Carve(rows, cols, shuffle), (0, 0))
    ensures Saturated(rows, cols, Carve(rows, cols, shuffle), (0, 0))
  {
    DfsGrows(rows, cols, shuffle, Carving({}, 0), 0, 0);
  }

  /** Every carved cell with both coordinates even has its neighbours two steps away carved. */
  lemma CarvedEvenSaturated(rows: nat, cols: nat, shuffle: Shuffle, x: Cell)
    requires rows > 0 && cols > 0
    requires x in Carve(rows, cols, shuffle) && Even(x)
    ensures Saturated(rows, cols, Carve(rows, cols, shuffle), x)
  {
    CarveGrows(rows, cols, shuffle);
  }

  /** After `dfs(0, 0)` the origin itself is carved, every carved cell is reachable from it
      through carved cells, and no cell with both coordinates odd is carved. */
  lemma CarveConnected(rows: nat, cols: nat, shuffle: Shuffle)
    requires rows > 0 && cols > 0 && (rows > 2 || cols > 2)
    ensures (0, 0) in Carve(rows, cols, shuffle)
    ensures forall x :: x in Carve(rows, cols, shuffle) ==> Linked(Carve(rows, cols, shuffle), (0, 0), x)
    ensures forall x :: x in Carve(rows, cols, shuffle) ==> x.0 % 2 == 0 || x.1 % 2 == 0
  {
    var open := Carve(rows, cols, shuffle);
    CarveOrigin(rows, cols, shuffle);
    CarveGrows(rows, cols, shuffle);
    assert open + {(0, 0)} == open;
  }

  /** The origin is carved: dfs(0, 0) carves a neighbour two steps away, and that
      neighbour's own dfs reaches back. */
  lemma CarveOrigin(rows: nat, cols: nat, shuffle: Shuffle)
    requires rows > 0 && cols > 0 && (rows > 2 || cols > 2)
    ensures (0, 0) in Carve(rows, cols, shuffle)
  {
    if rows > 2 {
      CarvedEvenSaturated(rows, cols, shuffle, (2, 0));
      assert Step((2, 0), Up) == (0, 0);
    } else {
      CarvedEvenSaturated(rows, cols, shuffle, (0, 2));
      assert Step((0, 2), Left) == (0, 0);
    }
  }

  /** The carving spans the interior: every cell with both coordinates even is carved. */
  lemma {:induction false} CarveSpans(rows: nat, cols: nat, shuffle: Shuffle, i: nat, j: nat)
    requires rows > 0 && cols > 0 && (rows > 2 || cols > 2)
    requires i < rows && j < cols && i % 2 == 0 && j % 2 == 0
    ensures (i, j) in Carve(rows, cols, shuffle)
    decreases i + j
  {
    if i == 0 && j == 0 {
      CarveOrigin(rows, cols, shuffle);
    } else if i > 0 {
      assert i >= 2;
      CarveSpans(rows, cols, shuffle, i - 2, j);
      CarvedEvenSaturated(rows, cols, shuffle, (i - 2, j));
      assert Step((i - 2, j), Down) == (i, j);
    } else {
      assert j >= 2;
      CarveSpans(rows, cols, shuffle, i, j - 2);
      CarvedEvenSaturated(rows, cols, shuffle, (i, j - 2));
      assert Step((i, j - 2), Right) == (i, j);
    }
  }

  /** The carved interior, as a grid: its 0 cells are exactly the carved cells, the
      corner (0, 0) is open, and every open cell is reachable from it through carved cells. */
  lemma MazeConnected(rows: nat, cols: nat, shuffle: Shuffle, i: int, j: int)
    requires rows > 0 && cols > 0 && (rows > 2 || cols > 2)
    requires 0 <= i < rows && 0 <= j < cols
    ensures CarvedMaze(rows, cols, shuffle)[i][j] == 0 <==> (i, j) in Carve(rows, cols, shuffle)
    ensures CarvedMaze(rows, cols, shuffle)[i][j] == 0 ==> Linked(Carve(rows, cols, shuffle), (0, 0), (i, j))
  {
    var open := Carve(rows, cols, shuffle);
    assert CarvedMaze(rows, cols, shuffle) == Zeroed(rows, cols, open);
    BandOrder(rows * cols, i * cols + j, i * cols + j);
    CarveConnected(rows, cols, shuffle);
  }

  /** The carved interior holds only floor and band wall ids. */
  lemma CarvedMazeIds(rows: nat, cols: nat, shuffle: Shuffle)
    requires rows > 0 && cols > 0
    ensures MazeIds(CarvedMaze(rows, cols, shuffle))
  {
    ZeroedIds(rows, cols, Carve(rows, cols, shuffle));
  }

  /** The corner (0, 0) of the carved interior is open. */
  lemma MazeCornerOpen(rows: nat, cols: nat, shuffle: Shuffle)
    requires rows > 0 && cols > 0 && (rows > 2 || cols > 2)
    ensures CarvedMaze(rows, cols, shuffle)[0][0] == 0
  {
    CarveConnected(rows, cols, shuffle);
    CarvedCell(rows, cols, shuffle, 0, 0);
  }

  /** Cells with both coordinates odd are never carved and keep their band wall id. */
  lemma OddCellsKeepBand(rows: nat, cols: nat, shuffle: Shuffle, i: nat, j: nat)
    requires rows > 0 && cols > 0 && (rows > 2 || cols > 2)
    requires i < rows && j < cols && i % 2 == 1 && j % 2 == 1
    ensures CarvedMaze(rows, cols, shuffle)[i][j] == BandId(rows * cols, i * cols + j)
  {
    CarvedNotOdd(rows, cols, shuffle, (i, j));
    CarvedCell(rows, cols, shuffle, i, j);
  }

  /** dfs never carves a cell with both coordinates odd. */
  lemma CarvedNotOdd(rows: nat, cols: nat, shuffle: Shuffle, x: Cell)
    requires rows > 0 && cols > 0
    ensures x in Carve(rows, cols, shuffle) ==> x.0 % 2 == 0 || x.1 % 2 == 0
  {
    CarveGrows(rows, cols, shuffle);
  }

  lemma CarvedCell(rows: nat, cols: nat, shuffle: Shuffle, i: nat, j: nat)
    requires rows > 0 && cols > 0 && i < rows && j < cols
    ensures CarvedMaze(rows, cols, shuffle)[i][j] ==
      if (i, j) in Carve(rows, cols, shuffle) then 0 else BandId(rows * cols, i * cols + j)
  {
  }
}

=== FILE: player.dfy ===
/**
 * `Player`: one player's state and the operations the handler and the tick loop apply to it.
 * Coordinates, health and damage are Java doubles, modelled as reals.
 */
module Players {
  import opened Wrappers

  /** `PlayerType`: the four character types. */
  datatype PlayerType = Alpha | Beta | Gamma | Delta

  /** `getStr()`: the constant's own name. */
  function TypeName(t: PlayerType): string
  {
    match t
    case Alpha => "ALPHA"
    case Beta => "BETA"
    case Gamma => "GAMMA"
    case Delta => "DELTA"
  }

  /** `PlayerType.valueOf(s)`: the type with exactly that name; None stands for the
      IllegalArgumentException any other text raises. */
  function ParseType(s: string): (r: Option<PlayerType>)
    ensures r.Some? <==> s in {"ALPHA", "BETA", "GAMMA", "DELTA"}
  {
    if s == "ALPHA" then Some(Alpha)
    else if s == "BETA" then Some(Beta)
    else if s == "GAMMA" then Some(Gamma)
    else if s == "DELTA" then Some(Delta)
    else None
  }

  /** The type name reads back as the type, and only a type's own name reads as it. */
  lemma TypeNameParses(t: PlayerType, s: string)
    ensures ParseType(TypeName(t)) == Some(t)
    ensures ParseType(s) == Some(t) <==> s == TypeName(t)
  {
  }

  /** The text of a `UUID`. */
  type Id = string

  /** The `PrintStream` a player's frames are written to, as an opaque handle. */
  type Connection = nat

  datatype Player = Player(
    id: Id,
    name: string,
    kind: PlayerType,
    health: real,
    damaging: bool,
    attacking: bool,
    attackDamage: real,
    x: real,
    y: real,
    out: Connection)

  const StartHealth: real := 100.0

  /** `new Player(out, id, name, type, x, y)`: full health, neither attacking nor damaging, no
      attack damage yet; None when `type` names no character type. */
  function NewPlayer(out: Connection, id: Id, name: string, typeName: string, x: real, y: real)
    : (r: Option<Player>)
    ensures r.Some? <==> ParseType(typeName).Some?
    ensures r.Some? ==>
      && r.value.id == id && r.value.name == name && TypeName(r.value.kind) == typeName
      && r.value.out == out && r.value.x == x && r.value.y == y
      && r.value.health == 100.0 && IsAlive(r.value)
      && !r.value.damaging && !r.value.attacking && r.value.attackDamage == 0.0
  {
    match ParseType(typeName)
    case None => None
    case Some(kind) =>
      TypeNameParses(kind, typeName);
      Some(Player(id, name, kind, StartHealth, false, false, 0.0, x, y, out))
  }

  /** `isAlive()`. */
  predicate IsAlive(p: Player)
  {
    p.health > 0.0
  }

  /** The fields no operation on a player ever changes. */
  predicate SameIdentity(p: Player, q: Player)
  {
    p.id == q.id && p.name == q.name && p.kind == q.kind && p.out == q.out
  }

  /** `damage(amt)`: health drops by exactly `amt`, without clamping or sign check. */
  function Damage(p: Player, amt: real): (r: Player)
    ensures r.health + amt == p.health
    ensures r.(health := p.health) == p
  {
    p.(health := p.health - amt)
  }

  function SetDamaging(p: Player, b: bool): (r: Player)
    ensures r.damaging == b && r.(damaging := p.damaging) == p
  {
    p.(damaging := b)
  }

  function SetAttacking(p: Player, b: bool): (r: Player)
    ensures r.attacking == b && r.(attacking := p.attacking) == p
  {
    p.(attacking := b)
  }

  function SetX(p: Player, x: real): (r: Player)
    ensures r.x == x && r.(x := p.x) == p
  {
    p.(x := x)
  }

  function SetY(p: Player, y: real): (r: Player)
    ensures r.y == y && r.(y := p.y) == p
  {
    p.(y := y)
  }

  function SetAttackDamage(p: Player, d: real): (r: Player)
    ensures r.attackDamage == d && r.(attackDamage := p.attackDamage) == p
  {
    p.(attackDamage := d)
  }

  /** One call of any of the player's mutators. */
  datatype Mutation =
    | DamageBy(amt: real)
    | Damaging(b: bool)
    | Attacking(b: bool)
    | MoveX(x: real)
    | MoveY(y: real)
    | AttackDamage(d: real)

  function Apply(p: Player, m: Mutation): Player
  {
    match m
    case DamageBy(amt) => Damage(p, amt)
    case Damaging(b) => SetDamaging(p, b)
    case Attacking(b) => SetAttacking(p, b)
    case MoveX(x) => SetX(p, x)
    case MoveY(y) => SetY(p, y)
    case AttackDamage(d) => SetAttackDamage(p, d)
  }

  function ApplyAll(p: Player, ms: seq<Mutation>): Player
    decreases |ms|
  {
    if |ms| == 0 then p else ApplyAll(Apply(p, ms[0]), ms[1..])
  }

  /** The total damage a sequence of mutations deals. */
  function DamageSum(ms: seq<Mutation>): real
    decreases |ms|
  {
    if |ms| == 0 then 0.0
    else (if ms[0].DamageBy? then ms[0].amt else 0.0) + DamageSum(ms[1..])
  }

  /** Whatever the mutators do, identity, name, type and stream stay those of construction,
      and health falls by exactly the damage dealt. */
  lemma {:induction false} MutationsKeepIdentity(p: Player, ms: seq<Mutation>)
    ensures SameIdentity(p, ApplyAll(p, ms))
    ensures ApplyAll(p, ms).health == p.health - DamageSum(ms)
    decreases |ms|
  {
    if |ms| > 0 {
      MutationsKeepIdentity(Apply(p, ms[0]), ms[1..]);
    }
  }

  /** Damage adds up: two blows are one blow of the sum. */
  lemma DamageAdds(p: Player, a: real, b: real)
    ensures Damage(Damage(p, a), b) == Damage(p, a + b)
  {
  }

  /** Damage kills exactly when it reaches the remaining health. */
  lemma DamageKills(p: Player, amt: real)
    ensures IsAlive(Damage(p, amt)) <==> amt < p.health
  {
  }

  /** Non-negative damage never heals, and a dead player stays dead. */
  lemma DamageNeverHeals(p: Player, amt: real)
    requires amt >= 0.0
    ensures Damage(p, amt).health <= p.health
    ensures !IsAlive(p) ==> !IsAlive(Damage(p, amt))
  {
  }
}

=== FILE: players_manager.dfy ===
/**
 * `PlayersManager`: the registry of players by id, a hash map from a player's UUID to the
 * player.
 */
module PlayersManager {
  import opened Wrappers
  import opened Players

  type Registry = map<Id, Player>

  /** `new PlayersManager()`. */
  const Empty: Registry := map[]

  /** Every entry is stored under its player's own id, as `addPlayer` stores it. */
  predicate Keyed(reg: Registry)
  {
    forall id :: id in reg ==> reg[id].id == id
  }

  /** `addPlayer(p)`: `p` under its id, replacing an earlier entry with that id. */
  function AddPlayer(reg: Registry, p: Player): (r: Registry)
    ensures r.Keys == reg.Keys + {p.id}
    ensures r[p.id] == p
    ensures forall id :: id in reg && id != p.id ==> r[id] == reg[id]
    ensures Keyed(reg) ==> Keyed(r)
  {
    reg[p.id := p]
  }

  /** `getPlayer(id)`: the entry, or None for the null an absent id gives. */
  function GetPlayer(reg: Registry, id: Id): (r: Option<Player>)
    ensures r.Some? <==> id in reg
    ensures r.Some? ==> r.value == reg[id]
  {
    if id in reg then Some(reg[id]) else None
  }

  /** `removePlayer(id)`: `id` absent afterwards, every other entry kept. */
  function RemovePlayer(reg: Registry, id: Id): (r: Registry)
    ensures r.Keys == reg.Keys - {id}
    ensures forall other :: other in r ==> r[other] == reg[other]
    ensures Keyed(reg) ==> Keyed(r)
  {
    reg - {id}
  }

  /** `size()`: the number of ids. */
  function Size(reg: Registry): (n: nat)
    ensures n == |reg.Keys|
  {
    |reg|
  }

  /** `getPlayers()`: the key set. */
  function Ids(reg: Registry): (ids: set<Id>)
    ensures forall id :: id in ids <==> GetPlayer(reg, id).Some?
  {
    reg.Keys
  }

  /** `getPlayersList()`: the value collection. */
  function PlayersList(reg: Registry): (ps: set<Player>)
    ensures forall p :: p in ps <==> exists id :: id in reg && reg[id] == p
  {
    reg.Values
  }

  /** Adding a new id grows the registry by one; re-adding an id keeps its size. */
  lemma AddSize(reg: Registry, p: Player)
    ensures Size(AddPlayer(reg, p)) == Size(reg) + (if p.id in reg then 0 else 1)
  {
    var r := AddPlayer(reg, p);
    if p.id in reg {
      assert r.Keys == reg.Keys;
    } else {
      assert r.Keys == reg.Keys + {p.id};
    }
  }

  /** Removing an absent id changes nothing; removing a present one shrinks by one. */
  lemma RemoveSize(reg: Registry, id: Id)
    ensures id !in reg ==> RemovePlayer(reg, id) == reg
    ensures Size(RemovePlayer(reg, id)) == Size(reg) - (if id in reg then 1 else 0)
  {
    var r := RemovePlayer(reg, id);
    if id !in reg {
      assert r.Keys == reg.Keys;
    }
  }

  /** Adding and then removing an id leaves what removing it alone leaves. */
  lemma AddThenRemove(reg: Registry, p: Player)
    ensures RemovePlayer(AddPlayer(reg, p), p.id) == RemovePlayer(reg, p.id)
  {
  }

  /** In a registry keyed by ids, a player is listed exactly when it is stored under its own
      id, and the list holds as many players as there are ids. */
  lemma {:induction false} ListMatchesIds(reg: Registry)
    requires Keyed(reg)
    ensures forall p :: p in PlayersList(reg) <==> p.id in Ids(reg) && reg[p.id] == p
    ensures |PlayersList(reg)| == Size(reg)
    decreases |reg|
  {
    if |reg| > 0 {
      var k :| k in reg;
      var rest := reg - {k};
      ListMatchesIds(rest);
      assert reg.Values == rest.Values + {reg[k]};
      assert reg.Keys == rest.Keys + {k};
    }
  }
}

=== FILE: server.dfy ===
/**
 * The shared server state that the connection handlers and the tick loop act on.
 *
 * In the source a `Player` is one object referenced from several places at once: the
 * handler's `player` variable, `DataSender`'s add queue and the `PlayersManager` map. A
 * change made through one reference is seen through all of them. Ids are fresh UUIDs, so
 * an id names one object. The model therefore keeps every player object in one of two
 * maps: `registry` is the `PlayersManager` map, and `detached` holds the objects that are
 * not (or no longer) registered but are still referenced by a handler or a queue.
 * `DataSender`'s three queues are kept here too, as ids.
 */
module Server {
  import opened Players
  import opened PlayersManager

  datatype World = World(
    registry: Registry,
    detached: map<Id, Player>,
    uuids: seq<Id>,
    adds: seq<Id>,
    removes: seq<Id>)

  /** The server right after `start`: nobody registered, all queues empty. */
  const Initial: World := World(map[], map[], [], [], [])

  /** `id` names a live player object. */
  predicate Known(w: World, id: Id)
  {
    id in w.registry || id in w.detached
  }

  /** The object an id refers to. */
  function Deref(w: World, id: Id): Player
    requires Known(w, id)
  {
    if id in w.registry then w.registry[id] else w.detached[id]
  }

  /** Objects are stored under their own ids, and each object lives in one place only. */
  predicate Sound(w: World)
  {
    && Keyed(w.registry)
    && (forall id :: id in w.detached ==> w.detached[id].id == id)
    && (forall id :: id in w.detached ==> id !in w.registry)
  }

  /** What the model keeps true: a sound world in which every queued id names an object. */
  predicate Valid(w: World)
  {
    && Sound(w)
    && (forall k :: 0 <= k < |w.uuids| ==> Known(w, w.uuids[k]))
    && (forall k :: 0 <= k < |w.adds| ==> Known(w, w.adds[k]))
    && (forall k :: 0 <= k < |w.removes| ==> Known(w, w.removes[k]))
  }

  /** A mutation through a reference: the object `p.id` becomes `p`, wherever it lives. */
  function Write(w: World, p: Player): (v: World)
    requires Known(w, p.id)
    ensures v.registry.Keys == w.registry.Keys && v.detached.Keys == w.detached.Keys
    ensures v.uuids == w.uuids && v.adds == w.adds && v.removes == w.removes
    ensures Deref(v, p.id) == p
    ensures forall id :: Known(w, id) && id != p.id ==> Deref(v, id) == Deref(w, id)
  {
    if p.id in w.registry then w.(registry := w.registry[p.id := p])
    else w.(detached := w.detached[p.id := p])
  }

  /** A new object, not yet registered. */
  function Create(w: World, p: Player): (v: World)
    requires !Known(w, p.id)
    ensures v.registry == w.registry && v.uuids == w.uuids && v.adds == w.adds && v.removes == w.removes
    ensures Known(v, p.id) && Deref(v, p.id) == p
    ensures forall id :: Known(w, id) ==> Known(v, id) && Deref(v, id) == Deref(w, id)
  {
    w.(detached := w.detached[p.id := p])
  }

  /** `players.addPlayer(p)` for the object `id`. */
  function Register(w: World, id: Id): (v: World)
    requires Known(w, id) && Deref(w, id).id == id
    ensures v.registry == AddPlayer(w.registry, Deref(w, id))
    ensures v.uuids == w.uuids && v.adds == w.adds && v.removes == w.removes
    ensures forall other :: Known(w, other) <==> Known(v, other)
    ensures forall other :: Known(w, other) ==> Deref(v, other) == Deref(w, other)
  {
    w.(registry := AddPlayer(w.registry, Deref(w, id)), detached := w.detached - {id})
  }

  /** `players.removePlayer(id)`: the object, if registered, stays alive but unregistered. */
  function Deregister(w: World, id: Id): (v: World)
    ensures v.registry == RemovePlayer(w.registry, id)
    ensures v.uuids == w.uuids && v.adds == w.adds && v.removes == w.removes
    ensures forall other :: Known(w, other) <==> Known(v, other)
    ensures forall other :: Known(w, other) ==> Deref(v, other) == Deref(w, other)
  {
    if id in w.registry then
      w.(registry := RemovePlayer(w.registry, id), detached := w.detached[id := w.registry[id]])
    else w
  }

  lemma WriteValid(w: World, p: Player)
    requires Valid(w) && Known(w, p.id)
    ensures Valid(Write(w, p))
  {
    var v := Write(w, p);
    assert forall k :: 0 <= k < |v.uuids| ==> Known(v, v.uuids[k]);
  }

  lemma CreateValid(w: World, p: Player)
    requires Valid(w) && !Known(w, p.id)
    ensures Valid(Create(w, p))
  {
  }

  lemma RegisterValid(w: World, id: Id)
    requires Valid(w) && Known(w, id)
    ensures Deref(w, id).id == id && Valid(Register(w, id))
  {
    var v := Register(w, id);
    assert forall k :: 0 <= k < |v.adds| ==> Known(v, v.adds[k]);
  }

  lemma RegisterSound(w: World, id: Id)
    requires Sound(w) && Known(w, id)
    ensures Deref(w, id).id == id && Sound(Register(w, id))
  {
  }

  lemma DeregisterSound(w: World, id: Id)
    requires Sound(w)
    ensures Sound(Deregister(w, id))
  {
  }

  lemma DeregisterValid(w: World, id: Id)
    requires Valid(w)
    ensures Valid(Deregister(w, id))
  {
  }
}

=== FILE: start_button.dfy ===
/**
 * `StartButtonListener.actionPerformed`: the port check behind the start button, and what
 * the button sets off when the port is accepted. The dialogs and frames are left out;
 * only the decision and the order of the server calls are modelled.
 */
module StartButton {
  import opened Wrappers
  import opened Decimal
  import opened Maze
  import opened MapGenerator
  import opened GameMap

  const PortMin: int := 5000
  const PortMax: int := 6000

  /** The text the port field holds until the user types into it. */
  const Placeholder: string := " Port (between 5000~6000)"

  /** `Integer.parseInt(portStr)` and the range check: the port, or None for the error
      dialog that either failure shows. */
  function ParsePort(text: string): (r: Option<int>)
    ensures r.Some? <==> ParseInt(text).Some? && PortMin <= ParseInt(text).value <= PortMax
    ensures r.Some? ==> r == ParseInt(text)
  {
    match ParseInt(text)
    case None => None
    case Some(port) => if PortMin > port || port > PortMax then None else Some(port)
  }

  /** The placeholder is not a number, so pressing start without typing a port is
      rejected. */
  lemma PlaceholderRejected()
    ensures ParsePort(Placeholder) == None
  {
    assert !IsDigit(Placeholder[0]);
  }

  /** A port written the way `Integer.toString` writes it is accepted exactly when it lies
      in 5000..6000, both ends included, and reads back as itself. */
  lemma PortText(port: int)
    requires IntMin <= port <= IntMax
    ensures ParsePort(IntString(port)).Some? <==> PortMin <= port <= PortMax
    ensures ParsePort(IntString(port)).Some? ==> ParsePort(IntString(port)).value == port
  {
    ParseIntString(port);
  }

  /** A server call the button makes. */
  datatype Call = GenerateMapCall(size: nat) | StartCall(port: int)

  /** The calls `actionPerformed` makes on the server, in order: none when the port is
      rejected; otherwise `generateMap(mapSize)` and then `start(port)`. */
  function Calls(text: string, mapSize: nat): (calls: seq<Call>)
    ensures calls == [] <==> ParsePort(text).None?
    ensures calls != [] ==> calls == [GenerateMapCall(mapSize), StartCall(ParsePort(text).value)]
  {
    match ParsePort(text)
    case None => []
    case Some(port) => [GenerateMapCall(mapSize), StartCall(port)]
  }

  /** The server once the button was accepted: the map fields `generateMap` wrote, and the
      port it listens on. */
  datatype Launch = Launch(maps: MapState, port: int)

  /** The effect of the button on the server's map fields `s`: None when the port is
      rejected (nothing generated, nothing started); otherwise the map is generated before
      the server starts on the port, so the tick loop that `start` sets going finds the
      map text and the spawn list in place. The size comes from the spinner, which allows
      20..50. The spawn list's growth also follows from the `GenerateMap` clause, as the
      corner (1, 1) is always among the appended spawns; it is stated on its own as the fact
      `getRandomSpawnPoint` relies on. */
  function OnStart(s: MapState, text: string, mapSize: nat, shuffle: Shuffle, rooms: seq<Room>): (r: Option<Launch>)
    requires 20 <= mapSize <= 50 && GenerateArgs(NewGenerator(mapSize, mapSize), rooms)
    ensures r.Some? <==> ParsePort(text).Some?
    ensures r.Some? ==> PortMin <= r.value.port <= PortMax && ParseInt(text) == Some(r.value.port)
    ensures r.Some? ==> |r.value.maps.spawns| > |s.spawns|
    ensures r.Some? ==> r.value.maps == GenerateMap(s, mapSize, shuffle, rooms)
    ensures r.Some? ==> |s.mapStr| <= |r.value.maps.mapStr| && r.value.maps.mapStr[..|s.mapStr|] == s.mapStr
    ensures r.Some? ==> |r.value.maps.mapStr| == |s.mapStr| + mapSize * (mapSize + 1)
    ensures r.Some? ==> ParseMap(r.value.maps.mapStr[|s.mapStr|..]) == Some(r.value.maps.grid)
    ensures r.Some? ==> r.value.maps.grid == Generate(NewGenerator(mapSize, mapSize), shuffle, rooms)
  {
    match ParsePort(text)
    case None => None
    case Some(port) =>
      GenerateMapGrid(s, mapSize, shuffle, rooms);
      Some(Launch(GenerateMap(s, mapSize, shuffle, rooms), port))
  }

  /** Once started from the constructed server, every spawn draw succeeds: the map was
      generated first, and it always has an open spawn cell. */
  lemma StartedCanSpawn(text: string, mapSize: nat, shuffle: Shuffle, rooms: seq<Room>, u: real)
    requires 20 <= mapSize <= 50 && GenerateArgs(NewGenerator(mapSize, mapSize), rooms) && 0.0 <= u < 1.0
    requires ParsePort(text).Some?
    ensures RandomSpawnPoint(OnStart(Fresh, text, mapSize, shuffle, rooms).value.maps.spawns, u).Some?
  {
    FirstMap(mapSize, shuffle, rooms, u);
  }
}

=== FILE: text.dfy ===
/**
 * Splitting text at a separator character and joining pieces with one.
 * These are the string primitives behind the map text, the frame records
 * and the comma-separated protocol lines.
 */
module Text {

  /** Every piece of `s` between occurrences of `sep`, empty pieces included:
      a text with n separators has n+1 pieces. */
  function Split(s: string, sep: char): (parts: seq<string>)
    ensures |parts| > 0
    ensures |parts| == 1 <==> sep !in s
    decreases |s|
  {
    if |s| == 0 then [""]
    else
      var rest := Split(s[1..], sep);
      if s[0] == sep then [""] + rest
      else [[s[0]] + rest[0]] + rest[1..]
  }

  /** The pieces in order with `sep` between consecutive pieces (no trailing separator). */
  function Join(parts: seq<string>, sep: char): string
  {
    if |parts| == 0 then ""
    else if |parts| == 1 then parts[0]
    else parts[0] + [sep] + Join(parts[1..], sep)
  }

  /** The pieces in order, each one followed by `sep`. */
  function Terminated(parts: seq<string>, sep: char): string
  {
    if |parts| == 0 then "" else parts[0] + [sep] + Terminated(parts[1..], sep)
  }

  /** `String.split(",")` of Java: a text without the separator is its own only piece;
      otherwise the pieces with every trailing empty piece removed (possibly none left). */
  function JavaSplit(s: string, sep: char): (parts: seq<string>)
    ensures sep !in s ==> parts == [s]
    ensures sep in s ==> parts <= Split(s, sep)
    ensures sep in s ==> forall i :: |parts| <= i < |Split(s, sep)| ==> Split(s, sep)[i] == ""
    ensures sep in s && |parts| > 0 ==> parts[|parts| - 1] != ""
  {
    if sep !in s then [s] else DropTrailingEmpty(Split(s, sep))
  }

  function DropTrailingEmpty(parts: seq<string>): (kept: seq<string>)
    ensures kept <= parts
    ensures |kept| > 0 ==> kept[|kept| - 1] != ""
    ensures forall i :: |kept| <= i < |parts| ==> parts[i] == ""
  {
    if |parts| > 0 && parts[|parts| - 1] == "" then DropTrailingEmpty(parts[..|parts| - 1])
    else parts
  }

  predicate Free(parts: seq<string>, sep: char)
  {
    forall i :: 0 <= i < |parts| ==> sep !in parts[i]
  }

  /** A separator-free prefix followed by the separator splits off as the first piece. */
  lemma {:induction false} SplitAfter(a: string, sep: char, b: string)
    requires sep !in a
    ensures Split(a + [sep] + b, sep) == [a] + Split(b, sep)
    decreases |a|
  {
    if |a| == 0 {
      assert a + [sep] + b == [sep] + b;
      assert ([sep] + b)[1..] == b;
    } else {
      assert (a + [sep] + b)[1..] == a[1..] + [sep] + b;
      SplitAfter(a[1..], sep, b);
      assert [a[0]] + a[1..] == a;
    }
  }

  /** A separator-free text is a single piece. */
  lemma {:induction false} SplitPlain(a: string, sep: char)
    requires sep !in a
    ensures Split(a, sep) == [a]
    decreases |a|
  {
    if |a| > 0 {
      SplitPlain(a[1..], sep);
      assert [a[0]] + a[1..] == a;
    }
  }

  /** Joining and then splitting gives the pieces back, when no piece holds the separator. */
  lemma {:induction false} SplitJoin(parts: seq<string>, sep: char)
    requires |parts| > 0 && Free(parts, sep)
    ensures Split(Join(parts, sep), sep) == parts
    decreases |parts|
  {
    if |parts| == 1 {
      SplitPlain(parts[0], sep);
    } else {
      SplitJoin(parts[1..], sep);
      SplitAfter(parts[0], sep, Join(parts[1..], sep));
      assert [parts[0]] + parts[1..] == parts;
    }
  }

  /** Terminated pieces split back into the pieces plus the empty piece after the last separator. */
  lemma {:induction false} SplitTerminated(parts: seq<string>, sep: char)
    requires Free(parts, sep)
    ensures Split(Terminated(parts, sep), sep) == parts + [""]
    decreases |parts|
  {
    if |parts| > 0 {
      SplitTerminated(parts[1..], sep);
      SplitAfter(parts[0], sep, Terminated(parts[1..], sep));
      assert [parts[0]] + (parts[1..] + [""]) == parts + [""];
    }
  }

  /** When every piece has length `w`, the terminated text has |parts| * (w + 1) characters. */
  lemma {:induction false} TerminatedLength(parts: seq<string>, sep: char, w: nat)
    requires forall i :: 0 <= i < |parts| ==> |parts[i]| == w
    ensures |Terminated(parts, sep)| == |parts| * (w + 1)
    decreases |parts|
  {
    if |parts| > 0 {
      TerminatedLength(parts[1..], sep, w);
    }
  }

  /** Joining the pieces of a text with the separator gives the text back. */
  lemma {:induction false} JoinSplit(s: string, sep: char)
    ensures Join(Split(s, sep), sep) == s
    decreases |s|
  {
    if |s| > 0 {
      var rest := Split(s[1..], sep);
      JoinSplit(s[1..], sep);
      if s[0] == sep {
        assert Join([""] + rest, sep) == "" + [sep] + Join(rest, sep);
      } else if |rest| == 1 {
        assert Split(s, sep) == [[s[0]] + rest[0]];
      } else {
        var parts := [[s[0]] + rest[0]] + rest[1..];
        assert parts[1..] == rest[1..];
        assert Join(rest, sep) == rest[0] + [sep] + Join(rest[1..], sep);
      }
    }
  }

  /** A text made of separators only splits into empty pieces only. */
  lemma {:induction false} SplitSeparatorsOnly(s: string, sep: char)
    requires forall k :: 0 <= k < |s| ==> s[k] == sep
    ensures forall i :: 0 <= i < |Split(s, sep)| ==> Split(s, sep)[i] == ""
    decreases |s|
  {
    if |s| > 0 {
      SplitSeparatorsOnly(s[1..], sep);
    }
  }
}

=== FILE: wrappers.dfy ===
/** The optional value used wherever the Java code returns a reference that may be null. */
module Wrappers {

  datatype Option<+T> = None | Some(value: T)
}
